=== FILE: README.md ===
# Documentation server and concatenator, modelled in Dafny

This project models the two scripts that serve and bundle a documentation
tree:

- **`scripts/serve.ts`** is a small static HTTP server over a root directory. The model covers its core.
  - **Resolver.** `safeJoin` decodes the request path, normalises it, strips leading separators, joins it onto the root and refuses anything whose relative path starts with `..` or is absolute.
  - **Decision chain.** The request handler answers:
    - 403 for a refused path;
    - 404 when `stat` fails;
    - for a directory, the first README candidate (`README.md`, `readme.md`, `Readme.md`) that is a regular file, else `index.html`, else a listing;
    - for a `.md` file, rendered HTML unless `?raw=1`;
    - for anything else, the file itself, with the type from `getContentType`;
    - 500 when decoding throws.
  - **HTML helpers.** `escapeHtml`, the title of `wrapHtml`, `breadcrumb`, and the items and heading of `directoryListing`.
- **`scripts/concat-docs.ts`** builds one markdown document per language. The model covers:
  - `listMarkdownFilesRecursive`, which walks a directory, skips `node_modules`, `.git` and `build`, and keeps `*.md` in any letter case;
  - `sortDocs`, which puts the root `README.md` first, then sorts by depth, then by collation;
  - `concatenateLanguageDocs`, which writes the title and then one block per file: a marker comment, a `##` heading with the path relative to the base directory, and the text with trailing white space trimmed.

The file system is an immutable tree (`FileTree.Node`). Paths follow the POSIX
semantics of Node's `path` module, modelled on segments (`Paths`).

Calls into code outside the model are parameters:
- `decodeURIComponent` is `decode: string -> Option<string>`, where `None` stands for a thrown `URIError`.
- `encodeURI` is `encodeUri`.
- `marked.parse` is `markdown`.
- `localeCompare` is a collation `le`. Only the lemmas about order assume `le` is a total preorder.

Modules, in dependency order:

| module | covers |
|---|---|
| `Options` | result types |
| `Strings` | split, join, replace, case mapping, counting |
| `Paths` | `normalize`, `join`, `relative`, `basename`, `extname` |
| `Sorting` | a stable insertion sort standing in for `Array.prototype.sort` |
| `FileTree` | the tree, `stat` |
| `Html` | `escapeHtml`, `wrapHtml`, `breadcrumb` |
| `ContentType` | `getContentType` |
| `Resolver` | `safeJoin` |
| `Listing` | `directoryListing` |
| `Server` | the handler's decision chain and its response |
| `Discovery` | `listMarkdownFilesRecursive` |
| `SortDocs` | `sortDocs` |
| `Concat` | `concatenateLanguageDocs` |

Two behaviours of the code are modelled as written, though a reader might expect otherwise.
- **Traversal requests are confined, not refused.** `path.normalize` collapses the leading `..` segments of an absolute path at `/`, so `/../../etc/passwd` resolves to `etc/passwd` below the root and is served when it exists (`Resolver.EtcPasswdConfined`). It is not answered 403.
- **The listing heading is not escaped.** `Index of …` is inserted without escaping (`Listing.HeadingBelow`), so a directory named `<b>` is headed `<b>`. Entry names in the list itself are escaped.

A related quirk is kept as well: `rel.startsWith('..')` also refuses a top-level name that merely begins with two dots, such as `..foo` (`Resolver.DotDotNameRejected`).

## Model

| member | source | states |
|---|---|---|
| ContentType.GetContentType | scripts/serve.ts:28-48 | the extension, lower-cased, selects its table entry; every other extension, the empty one included, gets `application/octet-stream`, and only those do |
| ContentType.TableAgrees | scripts/serve.ts:30-47 | the `switch` and the extension table agree on every string: the known extensions map to their entries and exactly the unknown ones fall to the default |
| ContentType.KnownExtension | scripts/serve.ts:31-45 | each of the fifteen recognised extensions has a type other than `application/octet-stream` |
| ContentType.UnknownExtension | scripts/serve.ts:46 | an extension outside the table falls to `application/octet-stream` |
| ContentType.ContentTypeIgnoresCase | scripts/serve.ts:29 | the type does not depend on letter case: `A.MD` gets the type of `a.md` |
| ContentType.ExtnameUpper | scripts/serve.ts:29 | `extname` commutes with upper-casing, because `.` and `/` have no case |
| ContentType.JpgIsJpeg | scripts/serve.ts:40-41 | `.jpg` and `.jpeg`, in any letter case, both get `image/jpeg` |
| ContentType.NoExtensionIsBinary | scripts/serve.ts:29-46 | a path without an extension (`Makefile`, the dot-file `.md`) is sent as `application/octet-stream` |
| Paths.Normalize | scripts/serve.ts:52 | `path.normalize` never returns the empty string and keeps an absolute path absolute |
| Paths.PathJoin | scripts/serve.ts:53 | `path.join` never returns the empty string and keeps an absolute path absolute |
| Paths.Extname | scripts/serve.ts:29 | the extension is empty or a single dot-led suffix of the base name, strictly shorter than it; it is empty exactly when the base name is empty, is `..`, or has no `.` after its first character |
| Paths.Basename | scripts/serve.ts:216 | the base name holds no `/` and is the end of the path with trailing slashes removed: either all of it or the part after its last `/` |
| Paths.PathJoinNames | scripts/serve.ts:53 | joining names onto an absolute path appends them to its resolved segments |
| Paths.Relative | scripts/serve.ts:54 | `path.relative` between two absolute paths is empty exactly when they resolve to the same directory, and is never `.` or absolute |
| Paths.RelativeStartsWithDots | scripts/serve.ts:54-55 | `path.relative(root, abs)` starts with `..` exactly when `abs` is not at or below `root`, or when its first name below `root` starts with `..` |
| Paths.RelativeNotAbsolute | scripts/serve.ts:54-55 | a relative path computed between two resolved paths is never absolute |
| Resolver.SafeJoin | scripts/serve.ts:50-57 | a decoding failure, and nothing else, is reported as one; every resolved path is absolute and at or below the root |
| Resolver.JoinDecoded | scripts/serve.ts:52-56 | a decoded path is resolved, to the path it lands on, exactly when that path is at or below the root and not below it through a name starting with `..`, and is refused otherwise |
| Resolver.PlainRequest | scripts/serve.ts:50-57 | a request spelled as names, with or without a leading `/`, lands on those names below the root and is refused only when the first name starts with `..` |
| Resolver.PlainLanding | scripts/serve.ts:52-53 | normalising, stripping and joining a request spelled as names lands on those names below the root |
| Resolver.LeadingSlashIgnored | scripts/serve.ts:52 | for such requests a leading `/` makes no difference: every request is root-relative |
| Resolver.TraversalCollapses | scripts/serve.ts:52-55 | any number of leading `..` segments in an absolute request collapse at `/`, so the request lands below the root instead of being refused |
| Resolver.EtcPasswdConfined | scripts/serve.ts:50-57 | `/../../etc/passwd` resolves to `etc/passwd` below the root |
| Resolver.DotDotNameRejected | scripts/serve.ts:55 | a top-level name that merely starts with `..`, such as `..foo`, is refused |
| Resolver.SameNormalForm | scripts/serve.ts:52 | two decoded paths with the same normal form are resolved alike |
| FileTree.Stat | scripts/serve.ts:169-176 | `stat` fails exactly when nothing exists at the path, or a regular file is named with a trailing slash; otherwise it returns the node the path resolves to |
| FileTree.Find | scripts/serve.ts:184 | an entry is found exactly when one carries the name, and what is found is such an entry |
| Html.EscapeHtmlPerChar | scripts/serve.ts:118-120 | the three chained replacements escape each character independently of its neighbours |
| Html.EscapeHtml | scripts/serve.ts:118-120 | escaped text contains no `<` and no `>` |
| Html.UnescapeEscapeHtml | scripts/serve.ts:118-120 | undoing `&lt;`, `&gt;` and `&amp;`, in that order, recovers the input exactly |
| Html.EscapeHtmlIdentity | scripts/serve.ts:118-120 | escaping leaves a string unchanged exactly when it has no `&`, `<` or `>`; because `&` is replaced first, nothing is escaped twice |
| Html.EscapeHtmlAppend | scripts/serve.ts:118-120 | escaping distributes over concatenation |
| Html.WrapHtml | scripts/serve.ts:122-148 | the `<title>` of a wrapped page holds the escaped title, which opens no tag and unescapes back to the title |
| Html.Crumbs | scripts/serve.ts:107-116 | the trail has one link more than there are segments: the root link, then for each segment a link to its cumulative prefix with a trailing `/` |
| Html.Breadcrumb | scripts/serve.ts:107-116 | the loop, which extends an accumulator one segment at a time, produces that trail joined by ` &raquo; ` |
| Html.CrumbStep | scripts/serve.ts:111-113 | after step `i` the accumulator is the prefix of the first `i + 1` segments, and the link targets it followed by `/` |
| Html.CrumbPartsTrailingSlash | scripts/serve.ts:108 | a trailing `/` adds no crumb, because empty segments are filtered out |
| Html.CrumbPartsOfNames | scripts/serve.ts:108 | the trail of `/a/b` has exactly the crumbs `a`, `b`, in that order |
| Listing.Items | scripts/serve.ts:73-78 | the list has one item per directory entry, each entry's item exactly once |
| Listing.ItemsInNameOrder | scripts/serve.ts:73-78 | the items follow the entries in collation order of their names |
| Listing.ItemOf | scripts/serve.ts:75-77 | an item shows the entry's name, followed by `/` exactly for a directory; in a listing served at a directory URL its link is that URL followed by the shown name |
| Listing.Heading | scripts/serve.ts:80 | the heading is never empty, and is `.` exactly when the listed directory is the base directory itself |
| Listing.HeadingBelow | scripts/serve.ts:80 | below the base directory the heading is the names in between, unescaped |
| Listing.ItemLineTags | scripts/serve.ts:101 | an item line holds exactly four `<`, its own tags, whatever the entry name |
| Listing.JoinCount | scripts/serve.ts:101 | joining lines that each hold `k` of a character the separator lacks gives `k` per line |
| Listing.ListingItemCount | scripts/serve.ts:101 | the item list holds four `<` per entry: no entry name can add markup to it |
| Listing.ListingHtml | scripts/serve.ts:71-105 | the page opens with the head whose `<title>` holds the heading as it is, unescaped, then the breadcrumb trail inside the `crumbs` block, then the `<h1>` with the same heading; it closes with the item list and the tail; its length is exactly those two parts |
| Server.FirstFile | scripts/serve.ts:180-194 | the first candidate that is a regular file is chosen; directories of that name are skipped; nothing is chosen only when no candidate is a regular file |
| Server.FirstFileIs | scripts/serve.ts:181-192 | when candidate `k` is a regular file and none before it is, candidate `k` is chosen |
| Server.DirectoryOutcome | scripts/serve.ts:178-211 | a directory yields a README or `index.html` found directly inside it, or else a listing under a URL path ending in `/` |
| Server.FileOutcome | scripts/serve.ts:213-222 | a regular file is rendered exactly when its extension is `.md` in any letter case and `raw` is not asked for; otherwise it is sent with the type of its extension |
| Server.Handle | scripts/serve.ts:157-229 | the decision is 500 exactly when decoding fails, 403 exactly when the path is refused, and 404 exactly when nothing exists at the resolved path; every file served or rendered, and every directory listed, exists and lies within the root |
| Server.Render | scripts/serve.ts:157-229 | status 200 carries a content type and the others do not; 403, 404 and 500 answer exactly the refused, missing and failed requests; rendered markdown is sent as HTML whose body is the page wrapped around the rendered file, a sent file carries its own content type and its exact content, and a listing is sent as HTML whose body is the listing page of that directory |
| Server.Respond | scripts/serve.ts:157-229 | the response is 403 exactly when `safeJoin` refuses and 500 exactly when decoding fails |
| Server.RejectionIgnoresFileSystem | scripts/serve.ts:162-167 | a refused or undecodable request is answered without looking at the file system |
| Server.DirectoryPrefersReadme | scripts/serve.ts:178-194 | a directory with a README candidate renders the first one present, even when it also holds `index.html` |
| Server.DirectoryWithoutReadme | scripts/serve.ts:196-210 | a directory without README serves its `index.html` as HTML when there is one, and is listed otherwise, under a URL path ending in `/` |
| Server.IndexType | scripts/serve.ts:197-201 | `index.html` is always sent as `text/html` |
| Server.MarkdownRendered | scripts/serve.ts:213-222 | a `.md` file in any letter case is rendered with its base name as title, or sent as `text/markdown` with `raw` |
| Server.RawMarkdownVerbatim | scripts/serve.ts:213-222 | with `?raw=1` a markdown file is answered with status 200, as `text/markdown`, with the file's content unchanged |
| Server.RenderedTitleEscaped | scripts/serve.ts:213-218 | a rendered page's title is the escaped file name, which opens no tag and unescapes back to the name |
| Server.HandleFile | scripts/serve.ts:178-222 | a request resolved to a regular file is decided by the file and the `raw` flag alone |
| Server.ServesFileBelowRoot | scripts/serve.ts:157-222 | end to end, a request for names that lead to a regular non-markdown file below the root is answered with that file and the type of its extension |
| Server.MissingBelowRoot | scripts/serve.ts:169-176 | end to end, names that lead nowhere below the root are answered 404 |
| Discovery.ListMarkdown | scripts/concat-docs.ts:10-24 | the walk succeeds exactly when a directory exists at the path, and every path it lists is absolute |
| Discovery.Walk | scripts/concat-docs.ts:13-23 | every path collected below an absolute directory is absolute |
| Discovery.WalkSound | scripts/concat-docs.ts:13-22 | every collected path is a markdown file reached by real names through directories that are not skipped |
| Discovery.WalkComplete | scripts/concat-docs.ts:13-22 | every markdown file reachable through directories that are not skipped is collected |
| Discovery.WalkExact | scripts/concat-docs.ts:10-24 | the walk collects exactly the markdown files reachable through directories that are not skipped |
| Discovery.WalkAppend | scripts/concat-docs.ts:13-22 | the collection follows the entry order: the files of a list of entries are those of its parts, concatenated |
| Discovery.MarkdownAtAvoidsDenied | scripts/concat-docs.ts:17 | no collected file lies inside `node_modules`, `.git` or `build`, at any depth |
| Discovery.ListedAreFiles | scripts/concat-docs.ts:10-24 | every listed path names a regular file, so reading it succeeds |
| Sorting.InsertionSort | scripts/concat-docs.ts:32-42 | sorting is a permutation of its input |
| Sorting.InsertionSortSorted | scripts/concat-docs.ts:32-42 | over a total preorder the output is in order |
| Sorting.InsertionSortFront | scripts/concat-docs.ts:33-35 | for the insertion sort that stands in for `Array.prototype.sort`: when the comparator puts elements with a property before those without, and one has it, the first element has it |
| Sorting.MapPermutation | scripts/concat-docs.ts:44 | mapping a permutation gives a permutation of the mapped sequence |
| SortDocs.Sort | scripts/concat-docs.ts:26-45 | `sortDocs` returns its input reordered, each path as often as it occurs |
| SortDocs.RelTo | scripts/concat-docs.ts:27 | the relative path is empty exactly when the file is the language directory itself, and is never `.` |
| SortDocs.DocBefore | scripts/concat-docs.ts:32-42 | the root README comes strictly before any other file; between files of equal README flag a shallower one comes strictly first; at equal flag and depth the collation decides |
| SortDocs.DocBeforeTotal | scripts/concat-docs.ts:32-42 | README flag, then depth, then collation, compared in turn, is again a total preorder |
| SortDocs.SortOrder | scripts/concat-docs.ts:31-42 | in the output the root README precedes all other files; among the others, a shallower file precedes a deeper one; at equal depth files follow the collation |
| SortDocs.ReadmeFirst | scripts/concat-docs.ts:31-35 | when the root README is among the files, the model's sort puts it first for any collation; the engine's sort is bound to do so only when the collation is consistent |
| SortDocs.RootReadmeExact | scripts/concat-docs.ts:28-34 | a listed path is the root README exactly when it is `README.md` directly in the language directory, with that letter case |
| SortDocs.RelBelow | scripts/concat-docs.ts:27-38 | a file below the language directory has the names in between as its relative path, and its depth is their number |
| Concat.ReadAll | scripts/concat-docs.ts:59-61 | reading fails exactly when some path is not a regular file; otherwise each text is that file's content, in order |
| Concat.Blocks | scripts/concat-docs.ts:59-69 | there is one block per file, in order, each headed by the file's path relative to the base directory |
| Concat.ConcatenateLanguageDocs | scripts/concat-docs.ts:47-73 | the produced text starts with the language's title and a blank line |
| Concat.ConcatenateSucceeds | scripts/concat-docs.ts:47-73 | on a well-formed tree the document is produced exactly when the language directory exists |
| Concat.ConcatenateForm | scripts/concat-docs.ts:47-73 | for an existing language directory, the text is the title and then the blocks of the sorted walk, with every file read |
| Concat.DocumentAppend | scripts/concat-docs.ts:59-69 | the document grows by exactly one block per file, in order |
| Concat.Document | scripts/concat-docs.ts:55-69 | the document starts with the title and a blank line, and is exactly those when there are no files |
| Concat.FileBlock | scripts/concat-docs.ts:64-68 | a block is its marker and heading, then the text with trailing white space trimmed and nothing else removed, then a blank line |
| Concat.RelPathOfLanguageFile | scripts/concat-docs.ts:60 | a file of the language directory is headed by its path from the base directory: the language code, then the names below it |
| Concat.ListedReadable | scripts/concat-docs.ts:49-61 | on a well-formed directory every file found and sorted can be read |
| Concat.FirstIsReadme | scripts/concat-docs.ts:48-50 | when the language directory holds `README.md`, the first file in sorted order is that README |
| Concat.DocumentOpens | scripts/concat-docs.ts:56-64 | the document opens with the title, a blank line and the marker of its first file |
| Concat.OpensWithFirst | scripts/concat-docs.ts:47-69 | the produced document opens with the marker of the first file in sorted order |
| Concat.ReadmeOpensDocument | scripts/concat-docs.ts:47-69 | when the language directory has a `README.md`, the document opens with the block of `en/README.md` (or `es/README.md`) right after the title |

## Left out

- HTTP plumbing: URL parsing (`new URL`), headers, streaming and `listen`. The handler takes the pathname and the `raw` flag as given.
- File content is a single string: the text a UTF-8 read yields (`readFile(…, 'utf8')` at scripts/serve.ts:186, scripts/serve.ts:214 and scripts/concat-docs.ts:61), which also stands for the bytes `serveFile` streams (scripts/serve.ts:64). Invalid UTF-8, its replacement by U+FFFD, and the difference between bytes and decoded text are not modelled.
- A read error after a successful `stat` (permissions, races). The 500 path covers only a decoding failure; `serveFile` and `readFile` are taken to succeed on a regular file.
- Symbolic links. `stat` looks up the normalised path in the tree without following links.
- Case-insensitive file systems. Names match exactly.
- Windows separators. Paths are POSIX; `\` is only a character in a name, as Node's `path` treats it on POSIX.
- Relative roots. `path.resolve` against the working directory is left out; the root and base directories are absolute.
- `Listing.ListingHtml`: the CSS text is a placeholder. Only the heading, the breadcrumb and the item list carry properties.
- `wrapHtml` beyond the title: the CSS text is a placeholder.
- `parseArgs`, `start`, the port, and console logging.
- The concatenator's `main`, `ensureDir` and the write of the output file. The model returns the text that would be written.
- `scripts/make-zip.ts` is not part of this model.
- `marked.parse`, `encodeURI` and `localeCompare` are parameters. Their own behaviour is not modelled.
- Non-ASCII case mapping. `toLowerCase`/`toUpperCase` are modelled on ASCII letters only.
- Listing.ListingItemCount: assumes the link encoder never emits `<`. `encodeURI` guarantees this, but it is a parameter here.
- Sorting.InsertionSort: stands in for `Array.prototype.sort`. With an inconsistent comparator the engine's order is implementation-defined, so what holds for any comparator holds of the model's sort only.
- Discovery.Walk: its own contract states only that collected paths are absolute. Which files it collects is stated by Discovery.WalkExact, whose proof goes by induction over the walk.
- Paths.PathJoin: its own contract states only that the result is non-empty and stays absolute. What joining names yields is stated by Paths.PathJoinNames.
- SortDocs.SortOrder: assumes the collation is a total preorder. `localeCompare` is one, but it is a parameter here.
- Concat.DocumentAppend: states one block per file rather than a count of `<!-- File:` markers, because a file's own text may contain that marker.

=== FILE: concat.dfy ===
/**
 `concatenateLanguageDocs` of the documentation concatenator (scripts/concat-docs.ts): the
 combined markdown text of one language directory. Writing the output file is left out; the
 model yields the text that would be written.
 */
module Concat {
  import opened Options
  import opened Strings
  import opened Paths
  import opened FileTree
  import opened Discovery
  import opened SortDocs
  import opened Sorting

  datatype Lang = En | Es

  /** The language's directory name under the base directory. */
  function Code(lang: Lang): string
  {
    match lang
    case En => "en"
    case Es => "es"
  }

  /** The first line of the combined document, with its newline. */
  function Title(lang: Lang): string
  {
    match lang
    case En => "# FIBEX Standard Technology Stack (Combined – English)\n"
    case Es => "# Stack Tecnológico Estándar de FIBEX (Combinado – Español)\n"
  }

  /** The comment line that opens a file's block. */
  function Marker(relPath: string): string
  {
    "<!-- File: " + relPath + " -->\n"
  }

  /**
   A file's part of the document: marker comment, heading, blank line, trimmed text, blank
   line. The text part is the file's content with its trailing white space removed, and
   nothing else of it.
   */
  function FileBlock(relPath: string, content: string): (block: string)
    ensures var head := Marker(relPath) + "## " + relPath + "\n" + "\n";
      |block| == |head| + |TrimEnd(content)| + 2 && StartsWith(block, head) && EndsWith(block, "\n\n")
    ensures var head := Marker(relPath) + "## " + relPath + "\n" + "\n";
      var text := block[|head|..|block| - 2];
      && text <= content
      && (|text| == 0 || !IsJsSpace(text[|text| - 1]))
      && forall i :: |text| <= i < |content| ==> IsJsSpace(content[i])
  {
    var head := Marker(relPath) + "## " + relPath + "\n" + "\n";
    var block := head + TrimEnd(content) + "\n\n";
    assert block[|head|..|block| - 2] == TrimEnd(content);
    block
  }

  /**
   The text of every file in `paths`, or failure as soon as one is not a regular file
   (`readFile` throws).
   */
  function ReadAll(fs: Node, paths: seq<string>): (r: Option<seq<string>>)
    requires forall i :: 0 <= i < |paths| ==> IsAbsolute(paths[i])
    ensures r.None? <==> exists i :: 0 <= i < |paths| && !IsFileAt(fs, paths[i])
    ensures r.Some? ==> |r.value| == |paths|
    ensures r.Some? ==> forall i :: 0 <= i < |paths| ==> IsFileAt(fs, paths[i]) && r.value[i] == ContentAt(fs, paths[i])
  {
    if |paths| == 0 then Some([])
    else if !IsFileAt(fs, paths[0]) then None
    else
      match ReadAll(fs, paths[1..])
      case None =>
        assert exists i :: 0 <= i < |paths[1..]| && !IsFileAt(fs, paths[1..][i]);
        None
      case Some(rest) =>
        assert forall i :: 1 <= i < |paths| ==> paths[i] == paths[1..][i - 1];
        Some([ContentAt(fs, paths[0])] + rest)
  }

  /** The blocks of `files`, whose texts are `contents`, headed by their paths relative to `baseDir`. */
  function Blocks(baseDir: string, files: seq<string>, contents: seq<string>): (r: seq<string>)
    requires IsAbsolute(baseDir) && |files| == |contents|
    requires forall i :: 0 <= i < |files| ==> IsAbsolute(files[i])
    ensures |r| == |files|
    ensures forall i :: 0 <= i < |r| ==> r[i] == FileBlock(RelTo(baseDir, files[i]), contents[i])
  {
    if |files| == 0 then []
    else [FileBlock(RelTo(baseDir, files[0]), contents[0])] + Blocks(baseDir, files[1..], contents[1..])
  }

  /**
   The document: the title, a blank line, then one block per file; with no files, the title
   and the blank line alone.
   */
  function Document(lang: Lang, baseDir: string, files: seq<string>, contents: seq<string>): (r: string)
    requires IsAbsolute(baseDir) && |files| == |contents|
    requires forall i :: 0 <= i < |files| ==> IsAbsolute(files[i])
    ensures StartsWith(r, Title(lang) + "\n")
    ensures |files| == 0 ==> r == Title(lang) + "\n"
  {
    Title(lang) + "\n" + Concat(Blocks(baseDir, files, contents))
  }

  /**
   `concatenateLanguageDocs(lang, baseDir, …)`, returning the text written: failure when the
   language directory is missing or a file cannot be read.
   */
  function ConcatenateLanguageDocs(lang: Lang, baseDir: string, fs: Node, le: (string, string) -> bool): (r: Option<string>)
    requires IsAbsolute(baseDir)
    ensures r.Some? ==> StartsWith(r.value, Title(lang) + "\n")
  {
    var langDir := PathJoin(baseDir, Code(lang));
    match ListMarkdown(fs, langDir)
    case None => None
    case Some(all) =>
      var sorted := Sort(all, langDir, le);
      match ReadAll(fs, sorted)
      case None => None
      case Some(contents) => Some(Document(lang, baseDir, sorted, contents))
  }

  // ---------------------------------------------------------------------------
  // Properties

  lemma BlocksAppend(baseDir: string, files: seq<string>, contents: seq<string>, f: string, c: string)
    requires IsAbsolute(baseDir) && |files| == |contents| && IsAbsolute(f)
    requires forall i :: 0 <= i < |files| ==> IsAbsolute(files[i])
    ensures Blocks(baseDir, files + [f], contents + [c]) == Blocks(baseDir, files, contents) + [FileBlock(RelTo(baseDir, f), c)]
  {
  }

  /**
   The document grows one block per file, in order: adding a file at the end appends exactly
   its block.
   */
  lemma DocumentAppend(lang: Lang, baseDir: string, files: seq<string>, contents: seq<string>, f: string, c: string)
    requires IsAbsolute(baseDir) && |files| == |contents| && IsAbsolute(f)
    requires forall i :: 0 <= i < |files| ==> IsAbsolute(files[i])
    ensures Document(lang, baseDir, files + [f], contents + [c]) ==
      Document(lang, baseDir, files, contents) + FileBlock(RelTo(baseDir, f), c)
  {
    var block := FileBlock(RelTo(baseDir, f), c);
    var blocks := Blocks(baseDir, files, contents);
    BlocksAppend(baseDir, files, contents, f, c);
    ConcatAppend(blocks, [block]);
    assert Concat([block]) == block;
    AppendAssoc(Title(lang) + "\n", Concat(blocks), block);
  }

  lemma AppendAssoc(a: string, b: string, c: string)
    ensures a + (b + c) == a + b + c
  {
  }

  /**
   A file in the language directory is headed by its path from the base directory, which
   starts with the language's directory name: `en/guide/setup.md`.
   */
  lemma RelPathOfLanguageFile(lang: Lang, baseDir: string, names: seq<string>)
    requires IsAbsolute(baseDir)
    requires AllNames(names) && |names| > 0 && forall i :: 0 <= i < |names| ==> '\\' !in names[i]
    ensures var langDir := PathJoin(baseDir, Code(lang));
      RelTo(baseDir, PathOf(AbsSegs(langDir) + names)) == Code(lang) + "/" + Join(names, "/")
  {
    CodeIsName(lang);
    RelPathBelowSubdir(baseDir, Code(lang), names);
  }

  lemma CodeIsName(lang: Lang)
    ensures IsName(Code(lang)) && '\\' !in Code(lang)
  {
  }

  lemma RelPathBelowSubdir(baseDir: string, code: string, names: seq<string>)
    requires IsAbsolute(baseDir) && IsName(code) && '\\' !in code
    requires AllNames(names) && |names| > 0 && forall i :: 0 <= i < |names| ==> '\\' !in names[i]
    ensures RelTo(baseDir, PathOf(AbsSegs(PathJoin(baseDir, code)) + names)) == code + "/" + Join(names, "/")
  {
    var all := [code] + names;
    var F := AbsSegs(baseDir);
    PrefixName(code, names);
    assert AbsSegs(PathJoin(baseDir, code)) == F + [code] by {
      PathJoinName(baseDir, code);
    }
    SegsAssoc(F, code, names);
    assert RelTo(baseDir, PathOf(F + all)) == Join(all, "/") by {
      RelBelow(baseDir, all);
    }
    assert Join(all, "/") == code + "/" + Join(names, "/") by {
      JoinAppend([code], names, "/");
    }
  }

  lemma PrefixName(code: string, names: seq<string>)
    requires IsName(code) && '\\' !in code
    requires AllNames(names) && forall i :: 0 <= i < |names| ==> '\\' !in names[i]
    ensures AllNames([code] + names) && forall i :: 0 <= i < |[code] + names| ==> '\\' !in ([code] + names)[i]
  {
    var all := [code] + names;
    assert forall i :: 1 <= i < |all| ==> all[i] == names[i - 1];
  }

  lemma SegsAssoc(xs: seq<string>, x: string, ys: seq<string>)
    ensures xs + [x] + ys == xs + ([x] + ys)
  {
  }

  // ---------------------------------------------------------------------------
  // End to end

  /** On a well-formed directory every file the walk finds, once sorted, can be read. */
  lemma ListedReadable(fs: Node, langDir: string, le: (string, string) -> bool)
    requires IsAbsolute(langDir)
    requires ListMarkdown(fs, langDir).Some? && WellFormed(Stat(fs, langDir).value)
    ensures ReadAll(fs, Sort(ListMarkdown(fs, langDir).value, langDir, le)).Some?
  {
    var all := ListMarkdown(fs, langDir).value;
    var sorted := Sort(all, langDir, le);
    forall i | 0 <= i < |sorted|
      ensures IsFileAt(fs, sorted[i])
    {
      ListedAreFiles(fs, langDir, sorted[i]);
    }
  }

  /**
   On a well-formed tree the language's document is produced exactly when the language
   directory exists.
   */
  lemma ConcatenateSucceeds(lang: Lang, baseDir: string, fs: Node, le: (string, string) -> bool)
    requires IsAbsolute(baseDir)
    requires var langDir := PathJoin(baseDir, Code(lang));
      Stat(fs, langDir).Some? ==> WellFormed(Stat(fs, langDir).value)
    ensures var langDir := PathJoin(baseDir, Code(lang));
      ConcatenateLanguageDocs(lang, baseDir, fs, le).Some? <==> Stat(fs, langDir).Some? && Stat(fs, langDir).value.Dir?
  {
    var langDir := PathJoin(baseDir, Code(lang));
    if ListMarkdown(fs, langDir).Some? {
      ListedReadable(fs, langDir, le);
    }
  }

  /** The first sorted file of a language directory holding `README.md` is that README. */
  lemma FirstIsReadme(fs: Node, langDir: string, le: (string, string) -> bool)
    requires IsAbsolute(langDir)
    requires Stat(fs, langDir).Some? && Stat(fs, langDir).value.Dir?
    requires WellFormed(Stat(fs, langDir).value)
    requires MarkdownAt(Stat(fs, langDir).value.entries, ["README.md"])
    ensures |Sort(ListMarkdown(fs, langDir).value, langDir, le)| > 0
    ensures Sort(ListMarkdown(fs, langDir).value, langDir, le)[0] == PathOf(AbsSegs(langDir) + ["README.md"])
  {
    var es := Stat(fs, langDir).value.entries;
    var all := ListMarkdown(fs, langDir).value;
    assert all == Walk(langDir, es);
    var sorted := Sort(all, langDir, le);
    var k := ListedAt(langDir, es, ["README.md"]);
    ReadmeIsRootReadme(langDir);
    ReadmeFirst(all, langDir, le, k);
    OnlyRootReadme(langDir, es, sorted[0]);
  }

  /** Every markdown file reachable from the entries is listed, at some index `k`. */
  lemma ListedAt(dirPath: string, es: seq<Entry>, names: seq<string>) returns (k: nat)
    requires IsAbsolute(dirPath) && NamesOk(es)
    requires MarkdownAt(es, names)
    ensures k < |Walk(dirPath, es)| && Walk(dirPath, es)[k] == PathOf(AbsSegs(dirPath) + names)
  {
    WalkComplete(dirPath, es, names);
    k :| 0 <= k < |Walk(dirPath, es)| && Walk(dirPath, es)[k] == PathOf(AbsSegs(dirPath) + names);
  }

  lemma ReadmeIsRootReadme(langDir: string)
    requires IsAbsolute(langDir)
    ensures IsRootReadme(langDir, PathOf(AbsSegs(langDir) + ["README.md"]))
  {
    assert AllNames(["README.md"]);
    RootReadmeExact(langDir, ["README.md"]);
  }

  /** The only listed file that resolves to the root `README.md` is that file itself. */
  lemma OnlyRootReadme(langDir: string, es: seq<Entry>, p: string)
    requires IsAbsolute(langDir) && NamesOk(es)
    requires p in Walk(langDir, es) && IsRootReadme(langDir, p)
    ensures p == PathOf(AbsSegs(langDir) + ["README.md"])
  {
    WalkSound(langDir, es, p);
    var names :| AllNames(names) && MarkdownAt(es, names) && p == PathOf(AbsSegs(langDir) + names);
    RootReadmeExact(langDir, names);
  }

  /** The first lines of a document whose first file is at `relPath`: the title, a blank line, its marker. */
  function Opening(lang: Lang, relPath: string): string
  {
    Title(lang) + "\n" + Marker(relPath)
  }

  lemma MarkerOpensBlock(relPath: string, content: string)
    ensures Marker(relPath) <= FileBlock(relPath, content)
  {
    assert FileBlock(relPath, content) == Marker(relPath) + ("## " + relPath + "\n" + "\n" + TrimEnd(content) + "\n\n");
  }

  /** The document opens with the title, a blank line and the marker of its first file. */
  lemma DocumentOpens(lang: Lang, baseDir: string, files: seq<string>, contents: seq<string>, rel: string)
    requires IsAbsolute(baseDir) && |files| == |contents| && |files| > 0
    requires forall i :: 0 <= i < |files| ==> IsAbsolute(files[i])
    requires RelTo(baseDir, files[0]) == rel
    ensures StartsWith(Document(lang, baseDir, files, contents), Opening(lang, rel))
  {
    var blocks := Blocks(baseDir, files, contents);
    var marker := Marker(rel);
    MarkerOpensBlock(rel, contents[0]);
    assert Concat(blocks) == blocks[0] + Concat(blocks[1..]);
    assert marker <= Concat(blocks);
    PrefixUnderPrefix(Title(lang) + "\n", marker, Concat(blocks));
    StartsWithIsPrefix(Document(lang, baseDir, files, contents), Opening(lang, rel));
  }

  /**
   When the language directory has a `README.md`, the document opens with it: right after
   the title comes the block headed `en/README.md` (or `es/README.md`).
   */
  lemma ReadmeOpensDocument(lang: Lang, baseDir: string, fs: Node, le: (string, string) -> bool)
    requires IsAbsolute(baseDir)
    requires var langDir := PathJoin(baseDir, Code(lang));
      && Stat(fs, langDir).Some? && Stat(fs, langDir).value.Dir?
      && WellFormed(Stat(fs, langDir).value)
      && MarkdownAt(Stat(fs, langDir).value.entries, ["README.md"])
    ensures var r := ConcatenateLanguageDocs(lang, baseDir, fs, le);
      r.Some? && StartsWith(r.value, Opening(lang, Code(lang) + "/" + "README.md"))
  {
    FirstIsReadme(fs, PathJoin(baseDir, Code(lang)), le);
    ReadmeNameOk();
    TopFileOpens(lang, baseDir, fs, le, "README.md");
  }

  lemma ReadmeNameOk()
    ensures IsName("README.md") && '\\' !in "README.md"
  {
  }

  /** When the first file in sorted order lies directly in the language directory, its marker reads `en/<name>`. */
  lemma TopFileOpens(lang: Lang, baseDir: string, fs: Node, le: (string, string) -> bool, name: string)
    requires IsAbsolute(baseDir) && IsName(name) && '\\' !in name
    requires var langDir := PathJoin(baseDir, Code(lang));
      && Stat(fs, langDir).Some? && Stat(fs, langDir).value.Dir?
      && WellFormed(Stat(fs, langDir).value)
      && var sorted := Sort(ListMarkdown(fs, langDir).value, langDir, le);
         |sorted| > 0 && sorted[0] == PathOf(AbsSegs(langDir) + [name])
    ensures var r := ConcatenateLanguageDocs(lang, baseDir, fs, le);
      r.Some? && StartsWith(r.value, Opening(lang, Code(lang) + "/" + name))
  {
    var langDir := PathJoin(baseDir, Code(lang));
    OpensWithFirst(lang, baseDir, fs, le, PathOf(AbsSegs(langDir) + [name]));
    RelPathOfTopFile(lang, baseDir, name);
  }

  /** The document opens with the marker of the first file in sorted order. */
  lemma OpensWithFirst(lang: Lang, baseDir: string, fs: Node, le: (string, string) -> bool, first: string)
    requires IsAbsolute(baseDir)
    requires var langDir := PathJoin(baseDir, Code(lang));
      && Stat(fs, langDir).Some? && Stat(fs, langDir).value.Dir?
      && WellFormed(Stat(fs, langDir).value)
      && var sorted := Sort(ListMarkdown(fs, langDir).value, langDir, le);
         |sorted| > 0 && sorted[0] == first
    ensures IsAbsolute(first)
    ensures var r := ConcatenateLanguageDocs(lang, baseDir, fs, le);
      r.Some? && StartsWith(r.value, Opening(lang, RelTo(baseDir, first)))
  {
    var langDir := PathJoin(baseDir, Code(lang));
    var sorted := Sort(ListMarkdown(fs, langDir).value, langDir, le);
    ConcatenateForm(lang, baseDir, fs, le);
    DocumentOpens(lang, baseDir, sorted, ReadAll(fs, sorted).value, RelTo(baseDir, first));
  }

  /** For an existing, well-formed language directory, the document of its sorted walk. */
  lemma ConcatenateForm(lang: Lang, baseDir: string, fs: Node, le: (string, string) -> bool)
    requires IsAbsolute(baseDir)
    requires var langDir := PathJoin(baseDir, Code(lang));
      && Stat(fs, langDir).Some? && Stat(fs, langDir).value.Dir?
      && WellFormed(Stat(fs, langDir).value)
    ensures var langDir := PathJoin(baseDir, Code(lang));
      var sorted := Sort(ListMarkdown(fs, langDir).value, langDir, le);
      && ReadAll(fs, sorted).Some?
      && ConcatenateLanguageDocs(lang, baseDir, fs, le) == Some(Document(lang, baseDir, sorted, ReadAll(fs, sorted).value))
  {
    ListedReadable(fs, PathJoin(baseDir, Code(lang)), le);
  }

  /** A file directly in the language directory is headed `en/<name>` (or `es/<name>`). */
  lemma RelPathOfTopFile(lang: Lang, baseDir: string, name: string)
    requires IsAbsolute(baseDir) && IsName(name) && '\\' !in name
    ensures var langDir := PathJoin(baseDir, Code(lang));
      RelTo(baseDir, PathOf(AbsSegs(langDir) + [name])) == Code(lang) + "/" + name
  {
    assert AllNames([name]);
    RelPathOfLanguageFile(lang, baseDir, [name]);
    assert Join([name], "/") == name;
  }
}

=== FILE: content_type.dfy ===
/** `getContentType` of the documentation server (scripts/serve.ts): MIME type by file extension. */
module ContentType {
  import opened Strings
  import opened Paths

  const OctetStream := "application/octet-stream"

  /** The recognised extensions (lower case, with the dot) and their types. */
  const MimeTable: map<string, string> := map[
    ".html" := "text/html; charset=utf-8",
    ".css" := "text/css; charset=utf-8",
    ".js" := "text/javascript; charset=utf-8",
    ".mjs" := "text/javascript; charset=utf-8",
    ".json" := "application/json; charset=utf-8",
    ".md" := "text/markdown; charset=utf-8",
    ".txt" := "text/plain; charset=utf-8",
    ".svg" := "image/svg+xml",
    ".png" := "image/png",
    ".jpg" := "image/jpeg",
    ".jpeg" := "image/jpeg",
    ".gif" := "image/gif",
    ".ico" := "image/x-icon",
    ".pdf" := "application/pdf",
    ".xml" := "application/xml; charset=utf-8"
  ]

  /** The `switch` on the lower-cased extension. */
  function TypeOfExtension(ext: string): string
  {
    if ext == ".html" then "text/html; charset=utf-8"
    else if ext == ".css" then "text/css; charset=utf-8"
    else if ext == ".js" then "text/javascript; charset=utf-8"
    else if ext == ".mjs" then "text/javascript; charset=utf-8"
    else if ext == ".json" then "application/json; charset=utf-8"
    else if ext == ".md" then "text/markdown; charset=utf-8"
    else if ext == ".txt" then "text/plain; charset=utf-8"
    else if ext == ".svg" then "image/svg+xml"
    else if ext == ".png" then "image/png"
    else if ext == ".jpg" || ext == ".jpeg" then "image/jpeg"
    else if ext == ".gif" then "image/gif"
    else if ext == ".ico" then "image/x-icon"
    else if ext == ".pdf" then "application/pdf"
    else if ext == ".xml" then "application/xml; charset=utf-8"
    else OctetStream
  }

  /**
   `getContentType(filePath)`: total; the recognised extensions get their table entry and
   every other extension, the empty one included, gets `application/octet-stream`.
   */
  function GetContentType(filePath: string): (r: string)
    ensures ToLower(Extname(filePath)) in MimeTable ==> r == MimeTable[ToLower(Extname(filePath))]
    ensures ToLower(Extname(filePath)) !in MimeTable <==> r == OctetStream
  {
    var ext := ToLower(Extname(filePath));
    TableAgrees(ext);
    TypeOfExtension(ext)
  }

  /** The `switch` and the table agree on every extension. */
  lemma TableAgrees(ext: string)
    ensures ext in MimeTable ==> TypeOfExtension(ext) == MimeTable[ext]
    ensures ext !in MimeTable <==> TypeOfExtension(ext) == OctetStream
  {
    if ext in MimeTable {
      KnownExtension(ext);
    } else {
      UnknownExtension(ext);
    }
  }

  lemma KnownExtension(ext: string)
    requires ext in MimeTable
    ensures TypeOfExtension(ext) == MimeTable[ext] != OctetStream
  {
    MimeKeys(ext);
  }

  /** The table's keys, spelled out. */
  lemma MimeKeys(ext: string)
    requires ext in MimeTable
    ensures || ext == ".html" || ext == ".css" || ext == ".js" || ext == ".mjs" || ext == ".json"
            || ext == ".md" || ext == ".txt" || ext == ".svg" || ext == ".png" || ext == ".jpg"
            || ext == ".jpeg" || ext == ".gif" || ext == ".ico" || ext == ".pdf" || ext == ".xml"
  {
  }

  lemma UnknownExtension(ext: string)
    requires ext !in MimeTable
    ensures TypeOfExtension(ext) == OctetStream
  {
  }

  // ---------------------------------------------------------------------------
  // Case does not matter

  lemma LowerOfUpper(s: string)
    ensures ToLower(ToUpper(s)) == ToLower(s)
  {
    assert forall i :: 0 <= i < |s| ==> LowerChar(UpperChar(s[i])) == LowerChar(s[i]);
  }

  lemma UpperSlice(s: string, i: nat, j: nat)
    requires i <= j <= |s|
    ensures ToUpper(s)[i..j] == ToUpper(s[i..j])
  {
  }

  lemma UpperPreservesChar(c: char, d: char)
    requires d == '/' || d == '.'
    ensures UpperChar(c) == d <==> c == d
  {
  }

  lemma TrimTrailingSlashesUpper(p: string)
    ensures TrimTrailingSlashes(ToUpper(p)) == ToUpper(TrimTrailingSlashes(p))
    decreases |p|
  {
    if |p| > 0 {
      UpperPreservesChar(p[|p| - 1], '/');
      UpperSlice(p, 0, |p| - 1);
      TrimTrailingSlashesUpper(p[..|p| - 1]);
    }
  }

  function UpperAll(xs: seq<string>): (r: seq<string>)
    ensures |r| == |xs|
    ensures forall i :: 0 <= i < |xs| ==> r[i] == ToUpper(xs[i])
  {
    seq(|xs|, i requires 0 <= i < |xs| => ToUpper(xs[i]))
  }

  lemma {:induction false} SplitUpper(s: string)
    ensures Split(ToUpper(s), '/') == UpperAll(Split(s, '/'))
    decreases |s|
  {
    if |s| > 0 {
      var u := ToUpper(s);
      UpperSlice(s, 1, |s|);
      assert u[1..] == ToUpper(s[1..]);
      SplitUpper(s[1..]);
      UpperPreservesChar(s[0], '/');
      var rest := Split(s[1..], '/');
      if s[0] != '/' {
        assert ToUpper([s[0]] + rest[0]) == [u[0]] + ToUpper(rest[0]);
      }
    }
  }

  lemma LastDotUpper(s: string)
    ensures LastIndexOf(ToUpper(s), '.') == LastIndexOf(s, '.')
    decreases |s|
  {
    if |s| > 0 {
      UpperPreservesChar(s[|s| - 1], '.');
      UpperSlice(s, 0, |s| - 1);
      LastDotUpper(s[..|s| - 1]);
    }
  }

  lemma BasenameUpper(p: string)
    ensures Basename(ToUpper(p)) == ToUpper(Basename(p))
  {
    LastSegmentUpper(p);
    BasenameIsLast(p);
    BasenameIsLast(ToUpper(p));
  }

  function LastOf(xs: seq<string>): string
    requires |xs| > 0
  {
    xs[|xs| - 1]
  }

  /** The last `/`-separated piece of the path with its trailing slashes removed. */
  function LastSegment(p: string): string
  {
    LastOf(Split(TrimTrailingSlashes(p), '/'))
  }

  lemma LastSegmentUpper(p: string)
    ensures LastSegment(ToUpper(p)) == ToUpper(LastSegment(p))
  {
    TrimTrailingSlashesUpper(p);
    SplitLastUpper(TrimTrailingSlashes(p));
  }

  lemma SplitLastUpper(t: string)
    ensures LastOf(Split(ToUpper(t), '/')) == ToUpper(LastOf(Split(t, '/')))
  {
    SplitUpper(t);
    LastUpper(Split(t, '/'), Split(ToUpper(t), '/'));
  }

  lemma LastUpper(pieces: seq<string>, upper: seq<string>)
    requires |pieces| > 0 && upper == UpperAll(pieces)
    ensures LastOf(upper) == ToUpper(LastOf(pieces))
  {
  }

  /** The base name is the last piece of the trimmed path. */
  lemma BasenameIsLast(p: string)
    ensures Basename(p) == LastSegment(p)
  {
  }

  lemma DotDotUpper(base: string)
    ensures ToUpper(base) == ".." <==> base == ".."
  {
    if |base| == 2 {
      UpperPreservesChar(base[0], '.');
      UpperPreservesChar(base[1], '.');
      assert ToUpper(base) == [UpperChar(base[0]), UpperChar(base[1])];
    }
  }

  lemma ExtOfBaseUpper(base: string)
    ensures ExtOfBase(ToUpper(base)) == ToUpper(ExtOfBase(base))
  {
    var ubase := ToUpper(base);
    LastDotUpper(base);
    DotDotUpper(base);
    var dot := LastIndexOf(base, '.');
    if dot > 0 && base != ".." {
      UpperSlice(base, dot, |base|);
      assert base[dot..|base|] == base[dot..];
      assert ubase[dot..|ubase|] == ubase[dot..];
    } else {
      assert ToUpper("") == "";
    }
  }

  lemma ExtnameUpper(p: string)
    ensures Extname(ToUpper(p)) == ToUpper(Extname(p))
  {
    BasenameUpper(p);
    ExtOfBaseUpper(Basename(p));
  }

  /** The type depends on the extension without regard to letter case: `A.MD` is `a.md`. */
  lemma ContentTypeIgnoresCase(filePath: string)
    ensures GetContentType(ToUpper(filePath)) == GetContentType(filePath)
  {
    ExtnameUpper(filePath);
    LowerOfUpper(Extname(filePath));
  }

  /** A path with no extension, such as `Makefile` or the dot-file `.md`, is sent as binary. */
  lemma NoExtensionIsBinary(filePath: string)
    requires Extname(filePath) == ""
    ensures GetContentType(filePath) == OctetStream
  {
  }

  /** `.jpg` and `.jpeg` share one case of the `switch`: both are `image/jpeg`. */
  lemma JpgIsJpeg(p: string, q: string)
    requires ToLower(Extname(p)) == ".jpg" && ToLower(Extname(q)) == ".jpeg"
    ensures GetContentType(p) == GetContentType(q) == "image/jpeg"
  {
    JpegEntries();
    TypeOfTableExtension(p, ".jpg");
    TypeOfTableExtension(q, ".jpeg");
  }

  lemma JpegEntries()
    ensures ".jpg" in MimeTable && MimeTable[".jpg"] == "image/jpeg"
    ensures ".jpeg" in MimeTable && MimeTable[".jpeg"] == "image/jpeg"
  {
  }

  lemma TypeOfTableExtension(p: string, ext: string)
    requires ext in MimeTable && ToLower(Extname(p)) == ext
    ensures GetContentType(p) == MimeTable[ext]
  {
  }
}

=== FILE: discovery.dfy ===
/**
 `listMarkdownFilesRecursive` of the documentation concatenator (scripts/concat-docs.ts):
 the markdown files below a directory, in `readdir` order, depth first.
 */
module Discovery {
  import opened Options
  import opened Strings
  import opened Paths
  import opened FileTree

  /** Directories the walk never enters. */
  const Denied := ["node_modules", ".git", "build"]

  /** A file name the walk collects: it ends in `.md` in any letter case. */
  predicate IsMarkdownName(name: string)
  {
    EndsWith(ToLower(name), ".md")
  }

  /** The files collected from the entries `es` of the directory at `dirPath`. */
  function Walk(dirPath: string, es: seq<Entry>): (r: seq<string>)
    ensures IsAbsolute(dirPath) ==> forall i :: 0 <= i < |r| ==> IsAbsolute(r[i])
    decreases es, 1
  {
    if |es| == 0 then [] else WalkEntry(dirPath, es[0]) + Walk(dirPath, es[1..])
  }

  /** The files collected from one entry: a markdown file itself, or those of a directory. */
  function WalkEntry(dirPath: string, e: Entry): (r: seq<string>)
    ensures IsAbsolute(dirPath) ==> forall i :: 0 <= i < |r| ==> IsAbsolute(r[i])
    decreases e, 0
  {
    var entryPath := PathJoin(dirPath, e.name);
    match e.node
    case Dir(sub) => if e.name in Denied then [] else Walk(entryPath, sub)
    case File(_) => if IsMarkdownName(e.name) then [entryPath] else []
  }

  /**
   `listMarkdownFilesRecursive(rootDir)`: the walk of the directory at `rootDir`, or failure
   when there is no directory there (`readdir` throws).
   */
  function ListMarkdown(fs: Node, rootDir: string): (r: Option<seq<string>>)
    requires IsAbsolute(rootDir)
    ensures r.Some? <==> Stat(fs, rootDir).Some? && Stat(fs, rootDir).value.Dir?
    ensures r.Some? ==> forall i :: 0 <= i < |r.value| ==> IsAbsolute(r.value[i])
  {
    match Stat(fs, rootDir)
    case Some(Dir(es)) => Some(Walk(rootDir, es))
    case _ => None
  }

  /**
   `names` leads from the entries `es` to a markdown file, through directories that are not
   denied.
   */
  predicate MarkdownAt(es: seq<Entry>, names: seq<string>)
    decreases es, 1
  {
    exists i :: 0 <= i < |es| && LeadsTo(es[i], names)
  }

  /** `names` leads from the entry `e` to a markdown file. */
  predicate LeadsTo(e: Entry, names: seq<string>)
    decreases e, 0
  {
    |names| > 0 && e.name == names[0] &&
    match e.node
    case File(_) => |names| == 1 && IsMarkdownName(names[0])
    case Dir(sub) => |names| > 1 && names[0] !in Denied && MarkdownAt(sub, names[1..])
  }

  predicate NamesOk(es: seq<Entry>)
  {
    WellFormed(Dir(es))
  }

  lemma NamesOkTail(es: seq<Entry>)
    requires NamesOk(es) && |es| > 0
    ensures NamesOk(es[1..]) && IsName(es[0].name) && WellFormed(es[0].node)
  {
    var tail := es[1..];
    forall i | 0 <= i < |tail|
      ensures IsName(tail[i].name) && WellFormed(tail[i].node)
    {
      assert tail[i] == es[i + 1];
    }
    forall i, j | 0 <= i < j < |tail|
      ensures tail[i].name != tail[j].name
    {
      assert tail[i] == es[i + 1] && tail[j] == es[j + 1];
    }
  }

  lemma MarkdownAtCons(es: seq<Entry>, names: seq<string>)
    requires |es| > 0
    ensures MarkdownAt(es, names) <==> LeadsTo(es[0], names) || MarkdownAt(es[1..], names)
  {
    if MarkdownAt(es[1..], names) {
      var i :| 0 <= i < |es[1..]| && LeadsTo(es[1..][i], names);
      assert es[i + 1] == es[1..][i];
    }
    if MarkdownAt(es, names) && !LeadsTo(es[0], names) {
      var i :| 0 <= i < |es| && LeadsTo(es[i], names);
      assert es[1..][i - 1] == es[i];
    }
  }

  lemma WalkAppend(dirPath: string, xs: seq<Entry>, ys: seq<Entry>)
    ensures Walk(dirPath, xs + ys) == Walk(dirPath, xs) + Walk(dirPath, ys)
  {
    if |xs| > 0 {
      assert (xs + ys)[0] == xs[0];
      assert (xs + ys)[1..] == xs[1..] + ys;
      WalkAppend(dirPath, xs[1..], ys);
    } else {
      assert xs + ys == ys;
    }
  }

  /** Every collected path is a markdown file below the walked directory, reached by real names. */
  lemma {:induction false} WalkSound(dirPath: string, es: seq<Entry>, p: string)
    requires IsAbsolute(dirPath) && NamesOk(es)
    requires p in Walk(dirPath, es)
    ensures exists names :: AllNames(names) && MarkdownAt(es, names) && p == PathOf(AbsSegs(dirPath) + names)
    decreases es
  {
    NamesOkTail(es);
    var e := es[0];
    if p in WalkEntry(dirPath, e) {
      WalkEntrySound(dirPath, e, p);
      var names :| AllNames(names) && LeadsTo(e, names) && p == PathOf(AbsSegs(dirPath) + names);
      MarkdownAtCons(es, names);
    } else {
      WalkSound(dirPath, es[1..], p);
      var names :| AllNames(names) && MarkdownAt(es[1..], names) && p == PathOf(AbsSegs(dirPath) + names);
      MarkdownAtCons(es, names);
    }
  }

  lemma {:induction false} WalkEntrySound(dirPath: string, e: Entry, p: string)
    requires IsAbsolute(dirPath) && IsName(e.name) && WellFormed(e.node)
    requires p in WalkEntry(dirPath, e)
    ensures exists names :: AllNames(names) && LeadsTo(e, names) && p == PathOf(AbsSegs(dirPath) + names)
    decreases e
  {
    var entryPath := PathJoin(dirPath, e.name);
    PathJoinName(dirPath, e.name);
    match e.node
    case File(_) =>
      assert IsMarkdownName(e.name) && p == entryPath;
      var names := [e.name];
      assert LeadsTo(e, names);
      assert p == PathOf(AbsSegs(dirPath) + names);
    case Dir(sub) =>
      assert e.name !in Denied && p in Walk(entryPath, sub);
      WalkSound(entryPath, sub, p);
      var rest :| AllNames(rest) && MarkdownAt(sub, rest) && p == PathOf(AbsSegs(entryPath) + rest);
      DescendLeadsTo(dirPath, e, rest);
  }

  lemma DescendLeadsTo(dirPath: string, e: Entry, rest: seq<string>)
    requires IsAbsolute(dirPath) && IsName(e.name) && e.node.Dir? && e.name !in Denied
    requires AllNames(rest) && MarkdownAt(e.node.entries, rest)
    ensures var names := [e.name] + rest;
      && AllNames(names) && LeadsTo(e, names)
      && PathOf(AbsSegs(PathJoin(dirPath, e.name)) + rest) == PathOf(AbsSegs(dirPath) + names)
  {
    var names := [e.name] + rest;
    assert names[1..] == rest;
    DescendPath(dirPath, e.name, rest);
  }

  /** Every markdown file reachable through directories that are not denied is collected. */
  lemma {:induction false} WalkComplete(dirPath: string, es: seq<Entry>, names: seq<string>)
    requires IsAbsolute(dirPath) && NamesOk(es)
    requires MarkdownAt(es, names)
    ensures PathOf(AbsSegs(dirPath) + names) in Walk(dirPath, es)
    decreases es
  {
    NamesOkTail(es);
    MarkdownAtCons(es, names);
    if LeadsTo(es[0], names) {
      WalkEntryComplete(dirPath, es[0], names);
    } else {
      WalkComplete(dirPath, es[1..], names);
    }
  }

  lemma {:induction false} WalkEntryComplete(dirPath: string, e: Entry, names: seq<string>)
    requires IsAbsolute(dirPath) && IsName(e.name) && WellFormed(e.node)
    requires LeadsTo(e, names)
    ensures PathOf(AbsSegs(dirPath) + names) in WalkEntry(dirPath, e)
    decreases e
  {
    var entryPath := PathJoin(dirPath, e.name);
    PathJoinName(dirPath, e.name);
    match e.node
    case File(_) =>
      assert names == [e.name];
    case Dir(sub) =>
      WalkComplete(entryPath, sub, names[1..]);
      assert names == [e.name] + names[1..];
      DescendPath(dirPath, e.name, names[1..]);
  }

  lemma DescendPath(dirPath: string, name: string, rest: seq<string>)
    requires IsAbsolute(dirPath) && IsName(name)
    ensures PathOf(AbsSegs(PathJoin(dirPath, name)) + rest) == PathOf(AbsSegs(dirPath) + ([name] + rest))
  {
    PathJoinName(dirPath, name);
    assert AbsSegs(dirPath) + ([name] + rest) == AbsSegs(dirPath) + [name] + rest;
  }

  /** The walk collects exactly the markdown files reachable through directories that are not denied. */
  lemma WalkExact(dirPath: string, es: seq<Entry>, p: string)
    requires IsAbsolute(dirPath) && NamesOk(es)
    ensures p in Walk(dirPath, es) <==>
      exists names :: AllNames(names) && MarkdownAt(es, names) && p == PathOf(AbsSegs(dirPath) + names)
  {
    if p in Walk(dirPath, es) {
      WalkSound(dirPath, es, p);
    }
    if exists names :: AllNames(names) && MarkdownAt(es, names) && p == PathOf(AbsSegs(dirPath) + names) {
      var names :| AllNames(names) && MarkdownAt(es, names) && p == PathOf(AbsSegs(dirPath) + names);
      WalkComplete(dirPath, es, names);
    }
  }

  /** A path that leads to a markdown file leads to a regular file in the tree. */
  lemma {:induction false} MarkdownAtIsFile(es: seq<Entry>, names: seq<string>)
    requires NamesOk(es) && MarkdownAt(es, names)
    ensures Lookup(Dir(es), names).Some? && Lookup(Dir(es), names).value.File?
    decreases es
  {
    var i :| 0 <= i < |es| && LeadsTo(es[i], names);
    FindUnique(es, i);
    assert Find(es, names[0]) == Some(es[i].node);
    match es[i].node
    case File(_) =>
      assert names[1..] == [];
    case Dir(sub) =>
      assert WellFormed(es[i].node);
      MarkdownAtIsFile(sub, names[1..]);
  }

  /**
   Every path `listMarkdownFilesRecursive` returns names a regular file of the tree, so
   reading it succeeds.
   */
  lemma ListedAreFiles(fs: Node, rootDir: string, p: string)
    requires IsAbsolute(rootDir)
    requires ListMarkdown(fs, rootDir).Some? && WellFormed(Stat(fs, rootDir).value)
    requires p in ListMarkdown(fs, rootDir).value
    ensures IsAbsolute(p) && IsFileAt(fs, p)
  {
    var es := Stat(fs, rootDir).value.entries;
    WalkSound(rootDir, es, p);
    var names :| AllNames(names) && MarkdownAt(es, names) && p == PathOf(AbsSegs(rootDir) + names);
    var F := AbsSegs(rootDir);
    AbsSegsNames(rootDir);
    assert AllNames(F + names);
    AbsSegsOfPathOf(F + names);
    MarkdownAtIsFile(es, names);
    LookupAppend(fs, F, names);
    var i :| 0 <= i < |es| && LeadsTo(es[i], names);
    JoinNamesLast(F + names);
  }

  /** A collected file never lies inside a denied directory, at any depth. */
  lemma {:induction false} MarkdownAtAvoidsDenied(es: seq<Entry>, names: seq<string>)
    requires MarkdownAt(es, names)
    ensures forall k :: 0 <= k < |names| - 1 ==> names[k] !in Denied
    decreases es
  {
    var i :| 0 <= i < |es| && LeadsTo(es[i], names);
    match es[i].node
    case File(_) =>
    case Dir(sub) =>
      MarkdownAtAvoidsDenied(sub, names[1..]);
      forall k | 1 <= k < |names| - 1
        ensures names[k] !in Denied
      {
        assert names[k] == names[1..][k - 1];
      }
  }
}

=== FILE: file_tree.dfy ===
/**
 The file system both scripts read, as an immutable tree: the root directory `/` holds
 named entries, each a regular file with its text or a directory with entries of its own.
 The order of a directory's entries is the order `readdir` reports them in.
 */
module FileTree {
  import opened Options
  import opened Strings
  import opened Paths

  datatype Node = File(content: string) | Dir(entries: seq<Entry>)
  datatype Entry = Entry(name: string, node: Node)

  /** Entry names are real names (no `/`, not `.` or `..`) and unique within their directory. */
  predicate WellFormed(n: Node)
  {
    match n
    case File(_) => true
    case Dir(es) =>
      && (forall i :: 0 <= i < |es| ==> IsName(es[i].name))
      && (forall i, j :: 0 <= i < j < |es| ==> es[i].name != es[j].name)
      && (forall i :: 0 <= i < |es| ==> WellFormed(es[i].node))
  }

  /** The entry called `name`, the first one when several share it. */
  function Find(es: seq<Entry>, name: string): (r: Option<Node>)
    ensures r.None? <==> forall i :: 0 <= i < |es| ==> es[i].name != name
    ensures r.Some? ==> exists i :: 0 <= i < |es| && es[i] == Entry(name, r.value)
  {
    if |es| == 0 then None
    else if es[0].name == name then Some(es[0].node)
    else
      var r := Find(es[1..], name);
      assert r.Some? ==> exists i :: 0 <= i < |es[1..]| && es[1..][i] == Entry(name, r.value);
      r
  }

  /** In a directory with unique names, the entry found is the one with that name. */
  lemma FindUnique(es: seq<Entry>, i: nat)
    requires i < |es|
    requires forall a, b :: 0 <= a < b < |es| ==> es[a].name != es[b].name
    ensures Find(es, es[i].name) == Some(es[i].node)
  {
    if i > 0 {
      FindUnique(es[1..], i - 1);
    }
  }

  /** The node reached by following the names `segs` from `n`. */
  function Lookup(n: Node, segs: seq<string>): Option<Node>
    decreases |segs|
  {
    if |segs| == 0 then Some(n)
    else match n
      case File(_) => None
      case Dir(es) =>
        match Find(es, segs[0])
        case None => None
        case Some(child) => Lookup(child, segs[1..])
  }

  lemma LookupAppend(n: Node, xs: seq<string>, ys: seq<string>)
    ensures Lookup(n, xs + ys) == (match Lookup(n, xs) case None => None case Some(m) => Lookup(m, ys))
    decreases |xs|
  {
    if |xs| > 0 {
      assert (xs + ys)[0] == xs[0];
      assert (xs + ys)[1..] == xs[1..] + ys;
      match n
      case File(_) =>
      case Dir(es) =>
        match Find(es, xs[0])
        case None =>
        case Some(child) => LookupAppend(child, xs[1..], ys);
    } else {
      assert xs + ys == ys;
    }
  }

  /**
   `fs.stat(p)` for an absolute, normalised `p` (symbolic links are not modelled): the node
   at `p`, or failure when there is none or when a regular file is named with a trailing
   slash (`ENOTDIR`).
   */
  function Stat(fs: Node, p: string): (r: Option<Node>)
    requires IsAbsolute(p)
    ensures r.Some? ==> r == Lookup(fs, AbsSegs(p))
    ensures r.Some? && r.value.File? ==> p[|p| - 1] != '/'
    ensures r.None? <==> Lookup(fs, AbsSegs(p)).None?
                         || (Lookup(fs, AbsSegs(p)).value.File? && p[|p| - 1] == '/')
  {
    var n := Lookup(fs, AbsSegs(p));
    if n.Some? && n.value.File? && p[|p| - 1] == '/' then None else n
  }

  predicate IsFileAt(fs: Node, p: string)
    requires IsAbsolute(p)
  {
    Stat(fs, p).Some? && Stat(fs, p).value.File?
  }

  /** The text of the regular file at `p` (`readFile(p, 'utf8')`). */
  function ContentAt(fs: Node, p: string): string
    requires IsAbsolute(p) && IsFileAt(fs, p)
  {
    Stat(fs, p).value.content
  }
}

=== FILE: html.dfy ===
/**
 The HTML text the documentation server builds around its content (scripts/serve.ts):
 `escapeHtml`, the page shell of `wrapHtml`, and the breadcrumb trail of a listing page.
 */
module Html {
  import opened Strings

  // ---------------------------------------------------------------------------
  // escapeHtml

  /**
   `escapeHtml(s)`: three global replacements, `&` first, then `<`, then `>`. The escaped
   text never contains `<` or `>`, so it can never open or close a tag.
   */
  function EscapeHtml(s: string): (r: string)
    ensures '<' !in r && '>' !in r
  {
    var r2 := ReplaceChar(ReplaceChar(s, '&', "&amp;"), '<', "&lt;");
    ReplaceCharKeepsAbsent(r2, '>', "&gt;", '<');
    ReplaceChar(r2, '>', "&gt;")
  }

  /** The inverse replacement chain: `&lt;`, then `&gt;`, then `&amp;`. */
  function UnescapeHtml(s: string): string
  {
    ReplaceAll(ReplaceAll(ReplaceAll(s, "&lt;", "<"), "&gt;", ">"), "&amp;", "&")
  }

  /** The text each character becomes when escaped on its own. */
  function EscapeChar(c: char): string
  {
    if c == '&' then "&amp;" else if c == '<' then "&lt;" else if c == '>' then "&gt;" else [c]
  }

  /** Every character of `s` replaced by `f` of it, concatenated. */
  function MapConcat(s: string, f: char -> string): string
  {
    if |s| == 0 then "" else f(s[0]) + MapConcat(s[1..], f)
  }

  predicate HasMarkup(s: string)
  {
    '&' in s || '<' in s || '>' in s
  }

  /** Escaping distributes over concatenation. */
  lemma EscapeHtmlAppend(a: string, b: string)
    ensures EscapeHtml(a + b) == EscapeHtml(a) + EscapeHtml(b)
  {
    var a1 := ReplaceChar(a, '&', "&amp;");
    var b1 := ReplaceChar(b, '&', "&amp;");
    ReplaceCharAppend(a, b, '&', "&amp;");
    var a2 := ReplaceChar(a1, '<', "&lt;");
    var b2 := ReplaceChar(b1, '<', "&lt;");
    ReplaceCharAppend(a1, b1, '<', "&lt;");
    ReplaceCharAppend(a2, b2, '>', "&gt;");
  }

  /** A single character escapes to `EscapeChar` of it. */
  lemma EscapeOne(c: char)
    ensures EscapeHtml([c]) == EscapeChar(c)
  {
    var r1 := ReplaceChar([c], '&', "&amp;");
    var r2 := ReplaceChar(r1, '<', "&lt;");
    assert EscapeHtml([c]) == ReplaceChar(r2, '>', "&gt;");
    ReplaceCharOne(c, '&', "&amp;");
    if c == '&' {
      ReplaceCharAbsent("&amp;", '<', "&lt;");
      ReplaceCharAbsent("&amp;", '>', "&gt;");
    } else {
      assert r1 == [c];
      ReplaceCharOne(c, '<', "&lt;");
      if c == '<' {
        assert r2 == "&lt;";
        ReplaceCharAbsent("&lt;", '>', "&gt;");
      } else {
        assert r2 == [c];
        ReplaceCharOne(c, '>', "&gt;");
      }
    }
  }


  /** The three passes of `EscapeHtml` escape each character independently. */
  lemma {:induction false} EscapeHtmlPerChar(s: string)
    ensures EscapeHtml(s) == MapConcat(s, EscapeChar)
    decreases |s|
  {
    if |s| > 0 {
      assert s == [s[0]] + s[1..];
      EscapeHtmlAppend([s[0]], s[1..]);
      EscapeOne(s[0]);
      EscapeHtmlPerChar(s[1..]);
    }
  }

  lemma MapConcatAppend(a: string, b: string, f: char -> string)
    ensures MapConcat(a + b, f) == MapConcat(a, f) + MapConcat(b, f)
    decreases |a|
  {
    if |a| == 0 {
      assert a + b == b;
    } else {
      assert (a + b)[1..] == a[1..] + b;
      MapConcatAppend(a[1..], b, f);
    }
  }

  /**
   One pass of a replacement scan over a per-character image: when the scan turns the image
   of every character, followed by anything, into the new image of that character followed
   by the scan of the rest, it turns the whole image into the new image.
   */
  lemma {:induction false} ReplaceAllMapConcat(s: string, f: char -> string, g: char -> string, pat: string, rep: string)
    requires |pat| > 0
    requires forall c: char, y: string :: ReplaceAll(f(c) + y, pat, rep) == g(c) + ReplaceAll(y, pat, rep)
    ensures ReplaceAll(MapConcat(s, f), pat, rep) == MapConcat(s, g)
    decreases |s|
  {
    if |s| > 0 {
      ReplaceAllMapConcat(s[1..], f, g, pat, rep);
      var y := MapConcat(s[1..], f);
      assert ReplaceAll(f(s[0]) + y, pat, rep) == g(s[0]) + ReplaceAll(y, pat, rep);
    } else {
      assert MapConcat(s, f) == "";
    }
  }

  /** A scan for a `&`-led pattern passes over a token that is not that pattern. */
  lemma PassToken(t: string, y: string, pat: string, rep: string)
    requires |pat| > 0 && |t| > 0
    requires pat[0] !in t[1..]
    requires !StartsWith(t + y, pat)
    ensures ReplaceAll(t + y, pat, rep) == t + ReplaceAll(y, pat, rep)
  {
    var tail := t[1..];
    assert [t[0]] + tail == t;
    ConsAssoc(t[0], tail, y);
    ReplaceAllMiss(t[0], tail + y, pat, rep);
    ReplaceAllSkip(tail, y, pat, rep);
    ConsAssoc(t[0], tail, ReplaceAll(y, pat, rep));
  }

  function AfterLt(c: char): string
  {
    if c == '&' then "&amp;" else if c == '>' then "&gt;" else [c]
  }

  function AfterGt(c: char): string
  {
    if c == '&' then "&amp;" else [c]
  }

  function Same(c: char): string
  {
    [c]
  }

  lemma StepLt(c: char, y: string)
    ensures ReplaceAll(EscapeChar(c) + y, "&lt;", "<") == AfterLt(c) + ReplaceAll(y, "&lt;", "<")
  {
    if c == '<' {
      ReplaceAllHit(y, "&lt;", "<");
    } else {
      var t := EscapeChar(c);
      assert (t + y)[0] == t[0] && (c == '&' || c == '>' ==> (t + y)[1] == t[1]);
      PassToken(t, y, "&lt;", "<");
    }
  }

  lemma StepGt(c: char, y: string)
    ensures ReplaceAll(AfterLt(c) + y, "&gt;", ">") == AfterGt(c) + ReplaceAll(y, "&gt;", ">")
  {
    if c == '>' {
      ReplaceAllHit(y, "&gt;", ">");
    } else {
      var t := AfterLt(c);
      assert (t + y)[0] == t[0] && (c == '&' ==> (t + y)[1] == t[1]);
      PassToken(t, y, "&gt;", ">");
    }
  }

  lemma StepAmp(c: char, y: string)
    ensures ReplaceAll(AfterGt(c) + y, "&amp;", "&") == Same(c) + ReplaceAll(y, "&amp;", "&")
  {
    if c == '&' {
      ReplaceAllHit(y, "&amp;", "&");
    } else {
      PassToken([c], y, "&amp;", "&");
    }
  }

  lemma MapConcatSame(s: string)
    ensures MapConcat(s, Same) == s
    decreases |s|
  {
    if |s| > 0 {
      MapConcatSame(s[1..]);
      assert [s[0]] + s[1..] == s;
    }
  }

  /** Undoing the replacements in the order `&lt;`, `&gt;`, `&amp;` recovers the input exactly. */
  lemma UnescapeEscapeHtml(s: string)
    ensures UnescapeHtml(EscapeHtml(s)) == s
  {
    EscapeHtmlPerChar(s);
    forall c: char, y: string
      ensures ReplaceAll(EscapeChar(c) + y, "&lt;", "<") == AfterLt(c) + ReplaceAll(y, "&lt;", "<")
    {
      StepLt(c, y);
    }
    ReplaceAllMapConcat(s, EscapeChar, AfterLt, "&lt;", "<");
    forall c: char, y: string
      ensures ReplaceAll(AfterLt(c) + y, "&gt;", ">") == AfterGt(c) + ReplaceAll(y, "&gt;", ">")
    {
      StepGt(c, y);
    }
    ReplaceAllMapConcat(s, AfterLt, AfterGt, "&gt;", ">");
    forall c: char, y: string
      ensures ReplaceAll(AfterGt(c) + y, "&amp;", "&") == Same(c) + ReplaceAll(y, "&amp;", "&")
    {
      StepAmp(c, y);
    }
    ReplaceAllMapConcat(s, AfterGt, Same, "&amp;", "&");
    MapConcatSame(s);
  }

  lemma {:induction false} EscapeGrows(s: string)
    ensures |MapConcat(s, EscapeChar)| >= |s|
    ensures HasMarkup(s) ==> |MapConcat(s, EscapeChar)| > |s|
    decreases |s|
  {
    if |s| > 0 {
      EscapeGrows(s[1..]);
      assert s == [s[0]] + s[1..];
      assert HasMarkup(s) && !HasMarkup(s[1..]) ==> s[0] == '&' || s[0] == '<' || s[0] == '>';
    }
  }

  /**
   Escaping is the identity exactly on text without `&`, `<` and `>`: because `&` is
   replaced first, nothing is escaped twice and clean text is left alone.
   */
  lemma EscapeHtmlIdentity(s: string)
    ensures EscapeHtml(s) == s <==> !HasMarkup(s)
  {
    if HasMarkup(s) {
      EscapeHtmlPerChar(s);
      EscapeGrows(s);
    } else {
      ReplaceCharAbsent(s, '&', "&amp;");
      ReplaceCharAbsent(s, '<', "&lt;");
      ReplaceCharAbsent(s, '>', "&gt;");
    }
  }

  // ---------------------------------------------------------------------------
  // wrapHtml

  /** The page markup around the title and body; the CSS rules are abbreviated to `PageStyle`. */
  const PageStyle := "<style>/* page rules */</style>"
  const WrapHead := "<!doctype html>\n<html>\n  <head>\n    <meta charset=\"utf-8\" />\n    <meta name=\"viewport\" content=\"width=device-width, initial-scale=1\" />\n    <title>"
  const WrapAfterTitle := "</title>\n    " + PageStyle + "\n  </head>\n  <body>\n    <header><strong>"
  const WrapAfterHeader := "</strong></header>\n    <main>\n      "
  const WrapTail := "\n    </main>\n  </body>\n</html>"

  /**
   `wrapHtml(title, bodyHtml)`: the page shell, with the title escaped in both places it
   appears. The `<title>` element holds the escaped title, which opens no tag and unescapes
   back to the title.
   */
  function WrapHtml(title: string, bodyHtml: string): (page: string)
    ensures |page| == |WrapHead| + 2 * |EscapeHtml(title)| + |WrapAfterTitle| + |WrapAfterHeader| + |bodyHtml| + |WrapTail|
    ensures var e := EscapeHtml(title);
      && page[|WrapHead|..|WrapHead| + |e|] == e
      && '<' !in e
      && UnescapeHtml(e) == title
      && page[|WrapHead| + |e|..][..|WrapAfterTitle|] == WrapAfterTitle
  {
    var e := EscapeHtml(title);
    var rest := e + WrapAfterHeader + bodyHtml + WrapTail;
    Regroup(WrapHead, e, WrapAfterTitle, WrapAfterHeader, bodyHtml, WrapTail);
    SliceOfConcat(WrapHead, e, WrapAfterTitle, rest);
    UnescapeEscapeHtml(title);
    WrapHead + e + WrapAfterTitle + e + WrapAfterHeader + bodyHtml + WrapTail
  }

  lemma Regroup(a: string, e: string, b: string, c: string, d: string, f: string)
    ensures a + e + b + e + c + d + f == a + e + (b + (e + c + d + f))
  {
  }

  lemma SliceOfConcat(a: string, e: string, b: string, rest: string)
    ensures (a + e + (b + rest))[|a|..|a| + |e|] == e
    ensures (a + e + (b + rest))[|a| + |e|..][..|b|] == b
  {
    assert (a + e + (b + rest))[|a| + |e|..] == b + rest;
  }

  // ---------------------------------------------------------------------------
  // breadcrumb

  function Anchor(href: string, text: string): string
  {
    "<a href=\"" + href + "\">" + text + "</a>"
  }

  const RootCrumb := Anchor("/", "/")
  const CrumbSeparator := " &raquo; "

  /** The non-empty `/`-separated segments of a URL path, after `\` is turned into `/`. */
  function CrumbParts(urlPath: string): seq<string>
  {
    NonEmpty(Split(ReplaceChar(urlPath, '\\', "/"), '/'))
  }

  /** The cumulative prefix `/s1/.../sk/` that the k-th segment's crumb links to. */
  function CrumbTarget(parts: seq<string>, k: nat): string
    requires k < |parts|
  {
    "/" + Join(parts[..k + 1], "/") + "/"
  }

  /**
   The crumbs of a trail: the root link, then one link per segment, targeting the
   segment's cumulative prefix (through `encodeURI`) and showing the escaped segment.
   */
  function Crumbs(parts: seq<string>, encodeUri: string -> string): (r: seq<string>)
    ensures |r| == 1 + |parts|
    ensures r[0] == RootCrumb
    ensures forall k :: 0 <= k < |parts| ==> r[k + 1] == CrumbAt(parts, k, encodeUri)
  {
    [RootCrumb] + seq(|parts|, k requires 0 <= k < |parts| => CrumbAt(parts, k, encodeUri))
  }

  /** The link of the k-th segment: to its cumulative prefix, showing the escaped segment. */
  function CrumbAt(parts: seq<string>, k: nat, encodeUri: string -> string): string
    requires k < |parts|
  {
    Anchor(encodeUri(CrumbTarget(parts, k)), EscapeHtml(parts[k]))
  }

  /** The breadcrumb trail of a listing page. */
  function BreadcrumbHtml(urlPath: string, encodeUri: string -> string): string
  {
    Join(Crumbs(CrumbParts(urlPath), encodeUri), CrumbSeparator)
  }

  /**
   `breadcrumb(urlPath)` as the source computes it, with an accumulator extended one
   segment at a time: it produces the trail of `Crumbs`, one link more than there are
   non-empty segments, joined by ` &raquo; `.
   */
  method Breadcrumb(urlPath: string, encodeUri: string -> string) returns (html: string)
    ensures html == Join(Crumbs(CrumbParts(urlPath), encodeUri), CrumbSeparator)
  {
    var parts := CrumbParts(urlPath);
    var crumbs := [RootCrumb];
    var acc := "";
    for i := 0 to |parts|
      invariant acc == Prefix(parts, i)
      invariant CrumbsUpTo(crumbs, parts, i, encodeUri)
    {
      CrumbStep(parts, i, acc);
      acc := acc + "/" + parts[i];
      var crumb := Anchor(encodeUri(acc + "/"), EscapeHtml(parts[i]));
      CrumbsExtend(crumbs, parts, i, encodeUri, crumb);
      crumbs := crumbs + [crumb];
    }
    CrumbsDone(crumbs, parts, encodeUri);
    html := Join(crumbs, CrumbSeparator);
  }

  /** The loop's accumulated path after `i` segments: `""`, then `/s1`, `/s1/s2`, ... */
  function Prefix(parts: seq<string>, i: nat): string
    requires i <= |parts|
  {
    if i == 0 then "" else "/" + Join(parts[..i], "/")
  }

  /** `crumbs` holds the root link and the links of the first `i` segments. */
  predicate CrumbsUpTo(crumbs: seq<string>, parts: seq<string>, i: nat, encodeUri: string -> string)
    requires i <= |parts|
  {
    && |crumbs| == i + 1 && crumbs[0] == RootCrumb
    && forall k :: 0 <= k < i ==> crumbs[k + 1] == CrumbAt(parts, k, encodeUri)
  }

  lemma CrumbsExtend(crumbs: seq<string>, parts: seq<string>, i: nat, encodeUri: string -> string, crumb: string)
    requires i < |parts| && CrumbsUpTo(crumbs, parts, i, encodeUri)
    requires crumb == CrumbAt(parts, i, encodeUri)
    ensures CrumbsUpTo(crumbs + [crumb], parts, i + 1, encodeUri)
  {
  }

  lemma CrumbsDone(crumbs: seq<string>, parts: seq<string>, encodeUri: string -> string)
    requires CrumbsUpTo(crumbs, parts, |parts|, encodeUri)
    ensures crumbs == Crumbs(parts, encodeUri)
  {
  }

  /** One step of the loop's accumulated prefix: adding the next segment yields its crumb's target. */
  lemma CrumbStep(parts: seq<string>, i: nat, acc: string)
    requires i < |parts| && acc == Prefix(parts, i)
    ensures acc + "/" + parts[i] == Prefix(parts, i + 1)
    ensures Prefix(parts, i + 1) + "/" == CrumbTarget(parts, i)
  {
    if i > 0 {
      JoinAppend(parts[..i], [parts[i]], "/");
      assert parts[..i] + [parts[i]] == parts[..i + 1];
    } else {
      assert parts[..1] == [parts[0]];
    }
  }

  /** A trailing slash adds no crumb: the handler's appended `/` leaves the trail unchanged. */
  lemma CrumbPartsTrailingSlash(urlPath: string)
    ensures CrumbParts(urlPath + "/") == CrumbParts(urlPath)
  {
    var u := ReplaceChar(urlPath, '\\', "/");
    ReplaceCharAppend(urlPath, "/", '\\', "/");
    assert ReplaceChar("/", '\\', "/") == "/";
    assert u + "/" == u + ['/'] + "";
    SplitAppend(u, '/', "");
    NonEmptyAppend(Split(u, '/'), [""]);
  }

  /** The trail of `/a/b/` (any names without `/` or `\`) has one crumb per name, in order. */
  lemma CrumbPartsOfNames(names: seq<string>)
    requires |names| > 0
    requires forall i :: 0 <= i < |names| ==> names[i] != "" && '/' !in names[i] && '\\' !in names[i]
    ensures CrumbParts("/" + Join(names, "/")) == names
  {
    var body := Join(names, "/");
    assert '\\' !in body by {
      NoBackslashJoin(names);
    }
    ReplaceCharAbsent("/" + body, '\\', "/");
    SplitLeadingSep(body, '/');
    SplitJoin(names, '/');
    NonEmptyAppend([""], names);
    NonEmptyOfNonEmpty(names);
  }

  lemma NonEmptyOfNonEmpty(xs: seq<string>)
    requires forall i :: 0 <= i < |xs| ==> xs[i] != ""
    ensures NonEmpty(xs) == xs
  {
    if |xs| > 0 {
      NonEmptyOfNonEmpty(xs[1..]);
    }
  }
}

=== FILE: listing.dfy ===
/**
 `directoryListing` of the documentation server (scripts/serve.ts): the HTML index of a
 directory with no README or `index.html`.
 */
module Listing {
  import opened Strings
  import opened Paths
  import opened Sorting
  import opened Html
  import opened FileTree

  /** One entry of the index: the name shown (a directory gets a trailing `/`) and its link. */
  datatype Item = Item(name: string, href: string)

  function ShownName(e: Entry): string
  {
    e.name + (if e.node.Dir? then "/" else "")
  }

  /** The comparator `(a, b) => a.name.localeCompare(b.name)`, over an abstract collation `le`. */
  function ByName(le: (string, string) -> bool): (Entry, Entry) -> bool
  {
    (a: Entry, b: Entry) => le(a.name, b.name)
  }

  /**
   The item of one entry: it shows the entry's name, with a `/` added exactly for a
   directory. In a listing served at a directory URL, its link is that URL followed by the
   shown name, so a subdirectory's link ends in `/` and a file's does not.
   */
  function ItemOf(urlPath: string, e: Entry): (r: Item)
    ensures e.name <= r.name && |r.name| <= |e.name| + 1
    ensures |r.name| > |e.name| <==> e.node.Dir?
    ensures e.node.Dir? ==> r.name[|e.name|] == '/'
    ensures IsName(e.name) && '\\' !in urlPath && urlPath == DirUrl(AbsSegs(urlPath)) ==>
      r.href == urlPath + r.name
  {
    LinkBelowDirUrl(urlPath, e);
    Item(ShownName(e), PathJoin(ReplaceChar(urlPath, '\\', "/"), ShownName(e)))
  }

  /** The entries sorted by name, then mapped to items: one item per entry, each exactly once. */
  function Items(entries: seq<Entry>, urlPath: string, le: (string, string) -> bool): (r: seq<Item>)
    ensures |r| == |entries|
    ensures multiset(r) == multiset(MapSeq(entries, e => ItemOf(urlPath, e)))
  {
    MapPermutation(InsertionSort(entries, ByName(le)), entries, e => ItemOf(urlPath, e));
    MapSeq(InsertionSort(entries, ByName(le)), e => ItemOf(urlPath, e))
  }

  /** The items appear in collation order of the entry names. */
  lemma ItemsInNameOrder(entries: seq<Entry>, urlPath: string, le: (string, string) -> bool)
    requires TotalPreorder(le)
    ensures var sorted := InsertionSort(entries, ByName(le));
      && (forall i :: 0 <= i < |sorted| ==> Items(entries, urlPath, le)[i] == ItemOf(urlPath, sorted[i]))
      && (forall i, j :: 0 <= i < j < |sorted| ==> le(sorted[i].name, sorted[j].name))
  {
    var cmp := ByName(le);
    assert TotalPreorder(cmp) by {
      forall a: Entry, b: Entry
        ensures cmp(a, b) || cmp(b, a)
      {
        assert le(a.name, b.name) || le(b.name, a.name);
      }
      forall a: Entry, b: Entry, c: Entry | cmp(a, b) && cmp(b, c)
        ensures cmp(a, c)
      {
        assert le(a.name, b.name) && le(b.name, c.name);
      }
    }
    InsertionSortSorted(entries, cmp);
    var sorted := InsertionSort(entries, cmp);
    forall i, j | 0 <= i < j < |sorted|
      ensures le(sorted[i].name, sorted[j].name)
    {
      assert cmp(sorted[i], sorted[j]);
    }
  }

  // ---------------------------------------------------------------------------
  // Links

  /** The URL path of a listed directory: `/` or `/a/b/`, always with the trailing slash. */
  function DirUrl(segs: seq<string>): string
  {
    if segs == [] then "/" else PathOf(segs) + "/"
  }

  lemma AbsSegsOfDirUrl(segs: seq<string>)
    requires AllNames(segs)
    ensures AbsSegs(DirUrl(segs)) == segs
  {
    AbsSegsOfPathOf(segs);
    if segs != [] {
      AbsSegsTrailingSlash(PathOf(segs));
    }
  }

  /** Joining a shown name onto a directory URL appends it. */
  lemma LinkBelowDirUrl(u: string, e: Entry)
    ensures IsName(e.name) && '\\' !in u && u == DirUrl(AbsSegs(u)) ==>
      PathJoin(ReplaceChar(u, '\\', "/"), ShownName(e)) == u + ShownName(e)
  {
    if IsName(e.name) && '\\' !in u && u == DirUrl(AbsSegs(u)) {
      var segs := AbsSegs(u);
      AbsSegsNames(u);
      ReplaceCharAbsent(u, '\\', "/");
      if e.node.Dir? {
        PathJoinDirName(u, e.name);
      } else {
        assert ShownName(e) == e.name;
        PathJoinName(u, e.name);
      }
      if segs != [] {
        PathOfAppend(segs, [e.name]);
      }
    }
  }

  // ---------------------------------------------------------------------------
  // Heading

  /**
   The heading `Index of …`: the directory relative to the base directory, `.` exactly for
   the base itself. It is inserted into the page without HTML escaping.
   */
  function Heading(baseDir: string, dirPath: string): (r: string)
    requires IsAbsolute(baseDir) && IsAbsolute(dirPath)
    ensures r != ""
    ensures r == "." <==> AbsSegs(baseDir) == AbsSegs(dirPath)
  {
    var rel := ReplaceChar(Relative(baseDir, dirPath), '\\', "/");
    if Relative(baseDir, dirPath) == "" then "."
    else
      ReplaceCharNotDot(Relative(baseDir, dirPath));
      rel
  }

  /**
   Below the base directory the heading is the names in between, verbatim: a directory named
   `<b>` under the base directory is headed `<b>`.
   */
  lemma HeadingBelow(baseDir: string, names: seq<string>)
    requires IsAbsolute(baseDir)
    requires AllNames(names) && |names| > 0 && forall i :: 0 <= i < |names| ==> '\\' !in names[i]
    ensures Heading(baseDir, PathOf(AbsSegs(baseDir) + names)) == Join(names, "/")
  {
    var F := AbsSegs(baseDir);
    AbsSegsNames(baseDir);
    assert AllNames(F + names);
    AbsSegsOfPathOf(F + names);
    RelativeToDescendant(F, names);
    NoBackslashJoin(names);
    ReplaceCharAbsent(Join(names, "/"), '\\', "/");
    JoinNamesEmpty(names);
  }

  // ---------------------------------------------------------------------------
  // The page

  const ListingStyle := "<style>/* listing rules */</style>"
  const ListingHead := "<!doctype html>\n<html>\n  <head>\n    <meta charset=\"utf-8\" />\n    <meta name=\"viewport\" content=\"width=device-width, initial-scale=1\" />\n    <title>Index of "
  const ListingAfterTitle := "</title>\n    " + ListingStyle + "\n  </head>\n  <body>\n    <div class=\"crumbs\">"
  const ListingAfterCrumbs := "</div>\n    <h1>Index of "
  const ListingAfterHeading := "</h1>\n    <ul>\n      "
  const ListingTail := "\n    </ul>\n  </body>\n  </html>"
  const ItemSeparator := "\n      "

  function ItemLine(i: Item, encodeUri: string -> string): string
  {
    "<li>" + Anchor(encodeUri(i.href), EscapeHtml(i.name)) + "</li>"
  }

  function ItemLines(items: seq<Item>, encodeUri: string -> string): (r: seq<string>)
    ensures |r| == |items|
  {
    MapSeq(items, i => ItemLine(i, encodeUri))
  }

  /**
   `directoryListing(baseDir, dirPath, urlPath)` over the entries `readdir` returned. The
   page's `<title>` and `<h1>` hold the heading as it is, unescaped, with the breadcrumb
   trail of `urlPath` between them, and the item list closes the page.
   */
  function ListingHtml(baseDir: string, dirPath: string, entries: seq<Entry>, urlPath: string,
                       le: (string, string) -> bool, encodeUri: string -> string): (r: string)
    requires IsAbsolute(baseDir) && IsAbsolute(dirPath)
    ensures var h := Heading(baseDir, dirPath);
      StartsWith(r, ListingHead + h + ListingAfterTitle + BreadcrumbHtml(urlPath, encodeUri)
                    + ListingAfterCrumbs + h + ListingAfterHeading)
    ensures EndsWith(r, Join(ItemLines(Items(entries, urlPath, le), encodeUri), ItemSeparator) + ListingTail)
    ensures var h := Heading(baseDir, dirPath);
      |r| == |ListingHead + h + ListingAfterTitle + BreadcrumbHtml(urlPath, encodeUri)
               + ListingAfterCrumbs + h + ListingAfterHeading|
             + |Join(ItemLines(Items(entries, urlPath, le), encodeUri), ItemSeparator) + ListingTail|
  {
    var heading := Heading(baseDir, dirPath);
    var front := ListingHead + heading + ListingAfterTitle + BreadcrumbHtml(urlPath, encodeUri)
      + ListingAfterCrumbs + heading + ListingAfterHeading;
    var back := Join(ItemLines(Items(entries, urlPath, le), encodeUri), ItemSeparator) + ListingTail;
    FrontAndBack(front, back);
    front + back
  }

  lemma FrontAndBack(front: string, back: string)
    ensures StartsWith(front + back, front) && EndsWith(front + back, back)
  {
    assert (front + back)[..|front|] == front;
  }

  lemma TagCounts()
    ensures Count("<li>", '<') == 1 && Count("<a href=\"", '<') == 1 && Count("\">", '<') == 0
    ensures Count("</a>", '<') == 1 && Count("</li>", '<') == 1
  {
    assert "<li>"[1..] == "li>";
    assert "li>"[1..] == "i>";
    assert "<a href=\""[1..] == "a href=\"";
    assert '<' !in "a href=\"";
    assert '<' !in "\">";
    assert "</a>"[1..] == "/a>";
    assert '<' !in "/a>";
    assert "</li>"[1..] == "/li>";
    assert '<' !in "/li>";
  }

  /** An item line holds exactly four `<`, its own tags, when the encoded link has none. */
  lemma ItemLineTags(i: Item, encodeUri: string -> string)
    requires '<' !in encodeUri(i.href)
    ensures Count(ItemLine(i, encodeUri), '<') == 4
  {
    var anchor := Anchor(encodeUri(i.href), EscapeHtml(i.name));
    AnchorTags(encodeUri(i.href), EscapeHtml(i.name));
    TagCounts();
    assert ItemLine(i, encodeUri) == "<li>" + anchor + "</li>";
    CountAppend("<li>", anchor, '<');
    CountAppend("<li>" + anchor, "</li>", '<');
  }

  /** A link whose target and text hold no `<` has exactly two: its opening and closing tags. */
  lemma AnchorTags(href: string, text: string)
    requires '<' !in href && '<' !in text
    ensures Count(Anchor(href, text), '<') == 2
  {
    var open := "<a href=\"";
    var mid := "\">";
    var close := "</a>";
    TagCounts();
    assert Anchor(href, text) == open + href + mid + text + close;
    CountAppend(open, href, '<');
    CountAppend(open + href, mid, '<');
    CountAppend(open + href + mid, text, '<');
    CountAppend(open + href + mid + text, close, '<');
  }

  lemma Distribute(k: nat, n: nat)
    ensures k * (n + 1) == k + k * n
  {
  }

  lemma {:induction false} JoinCount(lines: seq<string>, sep: string, c: char, k: nat)
    requires c !in sep
    requires forall i :: 0 <= i < |lines| ==> Count(lines[i], c) == k
    ensures Count(Join(lines, sep), c) == k * |lines|
    decreases |lines|
  {
    if |lines| > 1 {
      var rest := lines[1..];
      assert forall i :: 0 <= i < |rest| ==> Count(rest[i], c) == k by {
        forall i | 0 <= i < |rest|
          ensures Count(rest[i], c) == k
        {
          assert rest[i] == lines[i + 1];
        }
      }
      JoinCount(rest, sep, c, k);
      CountAppend(lines[0] + sep, Join(rest, sep), c);
      CountAppend(lines[0], sep, c);
      assert Join(lines, sep) == lines[0] + sep + Join(rest, sep);
      Distribute(k, |rest|);
    } else if |lines| == 1 {
      assert Join(lines, sep) == lines[0];
    }
  }

  /**
   The list holds one item per directory entry, and no entry name can add markup to it:
   with links encoded (as `encodeURI` does for `<`), the list's `<` are exactly the four tag
   openings of each item.
   */
  lemma ListingItemCount(entries: seq<Entry>, urlPath: string, le: (string, string) -> bool,
                         encodeUri: string -> string)
    requires forall s :: '<' !in encodeUri(s)
    ensures Count(Join(ItemLines(Items(entries, urlPath, le), encodeUri), ItemSeparator), '<') == 4 * |entries|
  {
    var lines := ItemLines(Items(entries, urlPath, le), encodeUri);
    forall i | 0 <= i < |lines|
      ensures Count(lines[i], '<') == 4
    {
      ItemLineTags(Items(entries, urlPath, le)[i], encodeUri);
    }
    JoinCount(lines, ItemSeparator, '<', 4);
  }
}

=== FILE: options.dfy ===
/** The optional value used for JavaScript's `null` returns and for calls that may throw. */
module Options {

  datatype Option<+T> = None | Some(value: T)
}

=== FILE: paths.dfy ===
/**
 Node's POSIX `path` functions as the two scripts use them: `normalize`, two-argument
 `join`, `relative` between absolute paths, `resolve` of an absolute path, `isAbsolute`,
 `basename` and `extname`.

 A path is split at `/` into segments; normalisation is a left fold over the segments
 that drops empty and `.` segments and lets `..` cancel the segment before it.
 */
module Paths {
  import opened Strings

  predicate IsAbsolute(p: string)
  {
    |p| > 0 && p[0] == '/'
  }

  /** A segment that normalisation keeps as it is: a directory-entry name. */
  predicate IsName(seg: string)
  {
    seg != "" && seg != "." && seg != ".." && '/' !in seg
  }

  predicate AllNames(segs: seq<string>)
  {
    forall i :: 0 <= i < |segs| ==> IsName(segs[i])
  }

  predicate NoSlash(segs: seq<string>)
  {
    forall i :: 0 <= i < |segs| ==> '/' !in segs[i]
  }

  /** One step of Node's `normalizeString`: how a segment changes the segments kept so far. */
  function NormStep(acc: seq<string>, seg: string, aboveRoot: bool): seq<string>
  {
    if seg == "" || seg == "." then acc
    else if seg == ".." then
      if |acc| > 0 && acc[|acc| - 1] != ".." then acc[..|acc| - 1]
      else if aboveRoot then acc + [".."]
      else acc
    else acc + [seg]
  }

  /** Folds `NormStep` over `segs`, left to right, starting from `acc`. */
  function NormFrom(acc: seq<string>, segs: seq<string>, aboveRoot: bool): seq<string>
    decreases |segs|
  {
    if |segs| == 0 then acc
    else NormFrom(NormStep(acc, segs[0], aboveRoot), segs[1..], aboveRoot)
  }

  /** `path.posix.normalize(p)`. */
  function Normalize(p: string): (r: string)
    ensures |r| > 0
    ensures IsAbsolute(p) ==> IsAbsolute(r)
  {
    if |p| == 0 then "."
    else
      var isAbs := p[0] == '/';
      var trailing := p[|p| - 1] == '/';
      var body := Join(NormFrom([], Split(p, '/'), !isAbs), "/");
      if |body| == 0 then (if isAbs then "/" else if trailing then "./" else ".")
      else (if isAbs then "/" else "") + body + (if trailing then "/" else "")
  }

  /** `path.posix.join(a, b)`: empty arguments are dropped, the rest joined by `/` and normalised. */
  function PathJoin(a: string, b: string): (r: string)
    ensures |r| > 0
    ensures IsAbsolute(a) ==> IsAbsolute(r)
  {
    if a == "" && b == "" then "."
    else if a == "" then Normalize(b)
    else if b == "" then Normalize(a)
    else Normalize(a + "/" + b)
  }

  /** The segments an absolute path resolves to (what `path.resolve` computes from it). */
  function AbsSegs(p: string): seq<string>
  {
    NormFrom([], Split(p, '/'), false)
  }

  /** The absolute path spelled by `segs`; `PathOf([])` is `/`. */
  function PathOf(segs: seq<string>): string
  {
    "/" + Join(segs, "/")
  }

  /** `path.resolve(p)` for an absolute `p`. */
  function Resolve(p: string): string
  {
    PathOf(AbsSegs(p))
  }

  /** The length of the longest common prefix of two segment sequences. */
  function CommonPrefix(xs: seq<string>, ys: seq<string>): (k: nat)
    ensures k <= |xs| && k <= |ys|
    ensures xs[..k] == ys[..k]
    ensures k < |xs| && k < |ys| ==> xs[k] != ys[k]
  {
    if |xs| == 0 || |ys| == 0 || xs[0] != ys[0] then 0
    else
      var k := 1 + CommonPrefix(xs[1..], ys[1..]);
      assert xs[..k] == [xs[0]] + xs[1..][..k - 1];
      assert ys[..k] == [ys[0]] + ys[1..][..k - 1];
      k
  }

  function Ups(n: nat): (r: seq<string>)
    ensures |r| == n
    ensures forall i :: 0 <= i < n ==> r[i] == ".."
  {
    seq(n, _ => "..")
  }

  /** `path.relative` between two resolved paths, given by their segments. */
  function RelativeSegs(from: seq<string>, to: seq<string>): string
  {
    var k := CommonPrefix(from, to);
    Join(Ups(|from| - k) + to[k..], "/")
  }

  /**
   `path.posix.relative(from, to)` for absolute paths (the working directory plays no part):
   empty exactly when both resolve to the same directory, and never `.` or absolute.
   */
  function Relative(from: string, to: string): (r: string)
    requires IsAbsolute(from) && IsAbsolute(to)
    ensures r == "" <==> AbsSegs(from) == AbsSegs(to)
    ensures r != "." && !IsAbsolute(r)
  {
    AbsSegsNames(to);
    RelativeSegsEmpty(AbsSegs(from), AbsSegs(to));
    RelativeNotAbsolute(AbsSegs(from), AbsSegs(to));
    RelativeSegs(AbsSegs(from), AbsSegs(to))
  }

  /** `p` without its trailing `/` characters. */
  function TrimTrailingSlashes(p: string): (r: string)
    ensures r <= p
    ensures |r| == 0 || r[|r| - 1] != '/'
  {
    if |p| > 0 && p[|p| - 1] == '/' then TrimTrailingSlashes(p[..|p| - 1]) else p
  }

  /**
   `path.posix.basename(p)`: the last segment, ignoring trailing slashes. It is the suffix
   of the trimmed path that holds no `/` and is the whole path or follows a `/`.
   */
  function Basename(p: string): (r: string)
    ensures '/' !in r
    ensures var t := TrimTrailingSlashes(p);
      EndsWith(t, r) && (|r| < |t| ==> t[|t| - |r| - 1] == '/')
  {
    var pieces := Split(TrimTrailingSlashes(p), '/');
    LastPiece(TrimTrailingSlashes(p), '/');
    pieces[|pieces| - 1]
  }

  /** The index of the last `c` in `s`, or -1. */
  function LastIndexOf(s: string, c: char): (r: int)
    ensures -1 <= r < |s|
    ensures r >= 0 ==> s[r] == c && c !in s[r + 1..]
    ensures r < 0 ==> c !in s
  {
    if |s| == 0 then -1
    else if s[|s| - 1] == c then |s| - 1
    else
      var r := LastIndexOf(s[..|s| - 1], c);
      assert r >= 0 ==> s[r + 1..] == s[..|s| - 1][r + 1..] + [s[|s| - 1]];
      r
  }

  /**
   `path.posix.extname(p)`: from the last `.` of the base name to its end, except that a
   base name without a dot, one whose only dot leads it (`.bashrc`), and `..` have none.
   */
  function Extname(p: string): (r: string)
    ensures r == "" || (r[0] == '.' && '.' !in r[1..])
    ensures r != "" ==> EndsWith(Basename(p), r) && |r| < |Basename(p)|
    ensures r == "" <==> |Basename(p)| == 0 || Basename(p) == ".." || '.' !in Basename(p)[1..]
  {
    ExtOfBase(Basename(p))
  }

  /** The extension of a base name. */
  function ExtOfBase(base: string): (r: string)
    ensures r == "" || (r[0] == '.' && '.' !in r[1..])
    ensures r != "" ==> EndsWith(base, r) && |r| < |base|
    ensures r == "" <==> |base| == 0 || base == ".." || '.' !in base[1..]
  {
    var dot := LastIndexOf(base, '.');
    if dot <= 0 || base == ".." then "" else base[dot..]
  }

  // ---------------------------------------------------------------------------
  // Normalisation lemmas

  lemma {:induction false} NormFromAppend(acc: seq<string>, xs: seq<string>, ys: seq<string>, aboveRoot: bool)
    ensures NormFrom(acc, xs + ys, aboveRoot) == NormFrom(NormFrom(acc, xs, aboveRoot), ys, aboveRoot)
    decreases |xs|
  {
    if |xs| == 0 {
      assert xs + ys == ys;
    } else {
      assert (xs + ys)[0] == xs[0];
      assert (xs + ys)[1..] == xs[1..] + ys;
      NormFromAppend(NormStep(acc, xs[0], aboveRoot), xs[1..], ys, aboveRoot);
    }
  }

  /** Names are kept as they are. */
  lemma {:induction false} NormFromNames(acc: seq<string>, xs: seq<string>, aboveRoot: bool)
    requires AllNames(xs)
    ensures NormFrom(acc, xs, aboveRoot) == acc + xs
    decreases |xs|
  {
    if |xs| > 0 {
      NormFromNames(acc + [xs[0]], xs[1..], aboveRoot);
      assert acc + [xs[0]] + xs[1..] == acc + xs;
    }
  }

  /** Without `aboveRoot`, normalising slash-free segments onto names leaves only names. */
  lemma {:induction false} NormFromKeepsNames(acc: seq<string>, xs: seq<string>)
    requires AllNames(acc) && NoSlash(xs)
    ensures AllNames(NormFrom(acc, xs, false))
    decreases |xs|
  {
    if |xs| > 0 {
      NormFromKeepsNames(NormStep(acc, xs[0], false), xs[1..]);
    }
  }

  lemma AbsSegsNames(p: string)
    ensures AllNames(AbsSegs(p))
  {
    NormFromKeepsNames([], Split(p, '/'));
  }

  lemma JoinNamesEmpty(segs: seq<string>)
    requires AllNames(segs)
    ensures Join(segs, "/") == "" <==> segs == []
  {
    if |segs| > 1 {
      assert Join(segs, "/") == segs[0] + "/" + Join(segs[1..], "/");
    }
  }

  /** The last character of a join of names is the last character of the last name. */
  lemma JoinNamesLast(segs: seq<string>)
    requires AllNames(segs) && |segs| > 0
    ensures |Join(segs, "/")| > 0
    ensures Join(segs, "/")[|Join(segs, "/")| - 1] != '/'
  {
    var n := |segs|;
    var last := segs[n - 1];
    if n == 1 {
    } else {
      JoinAppend(segs[..n - 1], [last], "/");
      assert segs[..n - 1] + [last] == segs;
      assert last[|last| - 1] in last;
    }
  }

  /** Normalising an absolute path spells its resolved segments, keeping a trailing slash. */
  /** A path with no `/` at either end normalises to its normalised segments, or `.` when none is left. */
  lemma NormalizeRelative(p: string)
    requires |p| > 0 && p[0] != '/' && p[|p| - 1] != '/'
    ensures var body := Join(NormFrom([], Split(p, '/'), true), "/");
      Normalize(p) == if |body| == 0 then "." else body
  {
    var body := Join(NormFrom([], Split(p, '/'), true), "/");
    assert "" + body + "" == body;
  }

  lemma NormalizeAbsolute(p: string)
    requires IsAbsolute(p)
    ensures Normalize(p) == PathOf(AbsSegs(p)) + (if p[|p| - 1] == '/' && AbsSegs(p) != [] then "/" else "")
  {
    AbsSegsNames(p);
    JoinNamesEmpty(AbsSegs(p));
  }

  lemma AbsSegsOfPathOf(segs: seq<string>)
    requires AllNames(segs)
    ensures AbsSegs(PathOf(segs)) == segs
  {
    var body := Join(segs, "/");
    SplitLeadingSep(body, '/');
    if segs == [] {
      assert Split(PathOf(segs), '/') == ["", ""];
      assert NormFrom([], ["", ""], false) == NormFrom([], [""], false) == NormFrom([], [], false);
    } else {
      SplitJoin(segs, '/');
      NormFromNames([], segs, false);
      assert Split(PathOf(segs), '/') == [""] + segs;
    }
  }

  lemma PathOfAppend(xs: seq<string>, ys: seq<string>)
    requires |xs| > 0 && |ys| > 0
    ensures PathOf(xs + ys) == PathOf(xs) + "/" + Join(ys, "/")
  {
    JoinAppend(xs, ys, "/");
  }

  /**
   Joining names onto an absolute path appends them to its resolved segments:
   `path.join(p, "a/b")` is the resolved `p` followed by `/a/b`.
   */
  lemma PathJoinNames(p: string, names: seq<string>)
    requires IsAbsolute(p) && AllNames(names) && |names| > 0
    ensures PathJoin(p, Join(names, "/")) == PathOf(AbsSegs(p) + names)
    ensures AbsSegs(PathJoin(p, Join(names, "/"))) == AbsSegs(p) + names
  {
    var rel := Join(names, "/");
    JoinNamesEmpty(names);
    JoinNamesLast(names);
    var q := p + "/" + rel;
    assert q == p + ['/'] + rel;
    SplitAppend(p, '/', rel);
    SplitJoin(names, '/');
    NormFromAppend([], Split(p, '/'), names, false);
    NormFromNames(AbsSegs(p), names, false);
    assert AbsSegs(q) == AbsSegs(p) + names;
    assert q[|q| - 1] == rel[|rel| - 1];
    NormalizeAbsolute(q);
    AbsSegsNames(p);
    AbsSegsOfPathOf(AbsSegs(p) + names);
  }

  lemma PathJoinName(p: string, name: string)
    requires IsAbsolute(p) && IsName(name)
    ensures PathJoin(p, name) == PathOf(AbsSegs(p) + [name])
    ensures AbsSegs(PathJoin(p, name)) == AbsSegs(p) + [name]
  {
    PathJoinNames(p, [name]);
  }

  /** A trailing slash does not change what a path resolves to. */
  lemma AbsSegsTrailingSlash(p: string)
    ensures AbsSegs(p + "/") == AbsSegs(p)
  {
    assert p + "/" == p + ['/'] + "";
    SplitAppend(p, '/', "");
    NormFromAppend([], Split(p, '/'), [""], false);
  }

  /** Joining `name/` keeps the trailing slash: `path.join("/a", "b/")` is `/a/b/`. */
  lemma PathJoinDirName(p: string, name: string)
    requires IsAbsolute(p) && IsName(name)
    ensures PathJoin(p, name + "/") == PathOf(AbsSegs(p) + [name]) + "/"
    ensures AbsSegs(PathJoin(p, name + "/")) == AbsSegs(p) + [name]
  {
    var q := p + "/" + (name + "/");
    assert q == (p + ['/'] + name) + "/";
    assert AbsSegs(p + ['/'] + name) == AbsSegs(p) + [name] by {
      SplitAppend(p, '/', name);
      SplitNoSep(name, '/');
      NormFromAppend([], Split(p, '/'), [name], false);
      assert IsName([name][0]);
      NormFromNames(AbsSegs(p), [name], false);
    }
    AbsSegsTrailingSlash(p + ['/'] + name);
    NormalizeAbsolute(q);
    AbsSegsNames(p);
    AbsSegsTrailingSlash(PathOf(AbsSegs(p) + [name]));
    AbsSegsOfPathOf(AbsSegs(p) + [name]);
  }

  lemma PathJoinAbsolute(p: string, q: string)
    requires IsAbsolute(p)
    ensures IsAbsolute(PathJoin(p, q))
  {
  }

  // ---------------------------------------------------------------------------
  // Relative paths

  lemma CommonPrefixExtend(xs: seq<string>, ys: seq<string>)
    ensures CommonPrefix(xs, xs + ys) == |xs|
    decreases |xs|
  {
    if |xs| > 0 {
      assert (xs + ys)[1..] == xs[1..] + ys;
      CommonPrefixExtend(xs[1..], ys);
    }
  }

  /** The relative path from a directory to something below it is the names in between. */
  lemma RelativeToDescendant(xs: seq<string>, ys: seq<string>)
    ensures RelativeSegs(xs, xs + ys) == Join(ys, "/")
  {
    CommonPrefixExtend(xs, ys);
    assert (xs + ys)[|xs|..] == ys;
    assert Ups(0) + ys == ys;
  }

  /** A join whose first part is not empty starts with that part. */
  lemma JoinStartsWithFirst(parts: seq<string>, sep: string)
    requires |parts| > 0
    ensures StartsWith(Join(parts, sep), parts[0])
  {
    if |parts| > 1 {
      assert Join(parts, sep) == parts[0] + (sep + Join(parts[1..], sep));
    }
  }

  /**
   The relative path from `from` to `to` starts with `..` exactly when `to` is not below
   `from`, or the first name below `from` itself starts with `..` (such as `..foo`).
   */
  lemma RelativeStartsWithDots(from: seq<string>, to: seq<string>)
    requires AllNames(from) && AllNames(to)
    ensures StartsWith(RelativeSegs(from, to), "..") <==>
      (!(from <= to) || (|to| > |from| && StartsWith(to[|from|], "..")))
  {
    var k := CommonPrefix(from, to);
    var parts := Ups(|from| - k) + to[k..];
    if |from| - k > 0 {
      JoinStartsWithFirst(parts, "/");
      assert parts[0] == "..";
      assert |to| <= k || from[k] != to[k];
    } else {
      assert from <= to;
      assert parts == to[|from|..];
      if |to| > |from| {
        JoinStartsWithFirst(parts, "/");
        var first := to[|from|];
        assert parts[0] == first;
        assert IsName(first);
        if |parts| > 1 {
          assert Join(parts, "/") == first + "/" + Join(parts[1..], "/");
          if |first| == 1 {
            assert first != ".";
            assert Join(parts, "/")[..2] == [first[0], '/'];
          } else {
            assert Join(parts, "/")[..2] == first[..2];
          }
        }
      } else {
        assert parts == [];
      }
    }
  }

  /** A relative path built from resolved segments is never absolute. */
  /** The relative path is empty exactly when the two paths coincide, and is never `.`. */
  lemma RelativeSegsEmpty(from: seq<string>, to: seq<string>)
    requires AllNames(to)
    ensures RelativeSegs(from, to) == "" <==> from == to
    ensures RelativeSegs(from, to) != "."
  {
    var k := CommonPrefix(from, to);
    var parts := Ups(|from| - k) + to[k..];
    var rel := Join(parts, "/");
    if from == to {
      assert parts == [];
    } else {
      assert |parts| > 0 by {
        if |from| - k == 0 {
          assert from == to[..k];
          assert k < |to|;
        }
      }
      JoinStartsWithFirst(parts, "/");
      assert parts[0] == ".." || parts[0] == to[k];
      assert IsName(parts[0]) || parts[0] == "..";
      assert rel != "" && rel != "." by {
        if |parts| == 1 {
          assert rel == parts[0];
        } else {
          assert rel == parts[0] + "/" + Join(parts[1..], "/");
          assert rel[|parts[0]|] == '/';
        }
      }
    }
  }

  lemma RelativeNotAbsolute(from: seq<string>, to: seq<string>)
    requires AllNames(to)
    ensures !IsAbsolute(RelativeSegs(from, to))
  {
    var k := CommonPrefix(from, to);
    var parts := Ups(|from| - k) + to[k..];
    if |parts| > 0 {
      JoinStartsWithFirst(parts, "/");
      assert parts[0] == ".." || parts[0] == to[k];
      assert parts[0][0] != '/' by {
        if parts[0] != ".." {
          assert parts[0][0] in parts[0];
        }
      }
    }
  }
}

=== FILE: resolver.dfy ===
/**
 `safeJoin` of the documentation server (scripts/serve.ts): maps a request path onto a path
 under the served root, or rejects it.
 */
module Resolver {
  import opened Options
  import opened Strings
  import opened Paths

  datatype Resolution =
    | Resolved(abs: string)   // the joined absolute path
    | Rejected                // `safeJoin` returned null
    | DecodeFailed            // `decodeURIComponent` threw

  /** `s` without its leading run of `c`. */
  function DropLeading(s: string, c: char): (r: string)
    ensures |r| <= |s| && r == s[|s| - |r|..]
    ensures |r| == 0 || r[0] != c
    ensures forall i :: 0 <= i < |s| - |r| ==> s[i] == c
  {
    if |s| > 0 && s[0] == c then DropLeading(s[1..], c) else s
  }

  /** `s.replace(/^\\+|^\/+/, '')`: a leading run of `\`, or else a leading run of `/`, is removed. */
  function StripLeadingSeparators(s: string): string
  {
    if |s| > 0 && s[0] == '\\' then DropLeading(s, '\\')
    else DropLeading(s, '/')
  }

  /**
   The part of `safeJoin` after decoding: normalise, strip, join onto the root, check. A
   request is resolved exactly when the path it lands on is admitted: at or below the root,
   and not below it through a name like `..foo` (which `startsWith('..')` also rejects).
   */
  function JoinDecoded(root: string, decoded: string): (r: Resolution)
    requires IsAbsolute(root)
    ensures var abs := Landing(root, decoded);
      r == if Admitted(AbsSegs(root), AbsSegs(abs)) then Resolved(abs) else Rejected
    ensures r.Resolved? ==> IsAbsolute(r.abs)
  {
    var normalized := StripLeadingSeparators(Normalize(decoded));
    var abs := PathJoin(root, normalized);
    var rel := Relative(root, abs);
    AbsSegsNames(root);
    AbsSegsNames(abs);
    RelativeStartsWithDots(AbsSegs(root), AbsSegs(abs));
    RelativeNotAbsolute(AbsSegs(root), AbsSegs(abs));
    if StartsWith(rel, "..") || IsAbsolute(rel) then Rejected else Resolved(abs)
  }

  /** `safeJoin(rootDir, requestPath)`, with `decodeURIComponent` given as `decode`. */
  function SafeJoin(root: string, requestPath: string, decode: string -> Option<string>): (r: Resolution)
    requires IsAbsolute(root)
    ensures r.DecodeFailed? <==> decode(requestPath).None?
    ensures r.Resolved? ==> IsAbsolute(r.abs) && AbsSegs(root) <= AbsSegs(r.abs)
  {
    match decode(requestPath)
    case None => DecodeFailed
    case Some(decoded) => JoinDecoded(root, decoded)
  }

  /** The path the root-relative request lands on, whether or not it is then admitted. */
  function Landing(root: string, decoded: string): string
    requires IsAbsolute(root)
  {
    PathJoin(root, StripLeadingSeparators(Normalize(decoded)))
  }

  /**
   The check admits exactly the paths at or below the root whose first name below the root
   does not start with `..`.
   */
  predicate Admitted(rootSegs: seq<string>, segs: seq<string>)
  {
    rootSegs <= segs && !(|segs| > |rootSegs| && StartsWith(segs[|rootSegs|], ".."))
  }

  // ---------------------------------------------------------------------------
  // Plain requests

  lemma NormalizeRelativeNames(names: seq<string>)
    requires AllNames(names) && |names| > 0
    ensures Normalize(Join(names, "/")) == Join(names, "/")
  {
    var j := Join(names, "/");
    assert Split(j, '/') == names by {
      assert forall i :: 0 <= i < |names| ==> '/' !in names[i];
      SplitJoin(names, '/');
    }
    assert NormFrom([], names, true) == names by {
      NormFromNames([], names, true);
      assert [] + names == names;
    }
    JoinNamesLast(names);
    JoinStartsWithFirst(names, "/");
    assert j[0] != '/' by {
      assert j[0] == names[0][0] && names[0][0] in names[0];
    }
    NormalizeRelative(j);
  }

  lemma NormalizeAbsoluteNames(names: seq<string>)
    requires AllNames(names) && |names| > 0
    ensures Normalize("/" + Join(names, "/")) == "/" + Join(names, "/")
  {
    var p := PathOf(names);
    JoinNamesLast(names);
    assert p[|p| - 1] == Join(names, "/")[|Join(names, "/")| - 1];
    AbsSegsOfPathOf(names);
    NormalizeAbsolute(p);
  }

  /**
   A request for names below the root, with or without a leading `/`, lands on those names
   below the root, and is admitted unless the first name starts with `..`.
   */
  lemma PlainRequest(root: string, lead: string, names: seq<string>)
    requires IsAbsolute(root)
    requires AllNames(names) && |names| > 0
    requires lead == "/" || (lead == "" && names[0][0] != '\\')
    ensures JoinDecoded(root, lead + Join(names, "/")) ==
      if StartsWith(names[0], "..") then Rejected else Resolved(PathOf(AbsSegs(root) + names))
  {
    var F := AbsSegs(root);
    PlainLanding(root, lead, names);
    AdmittedBelow(F, names);
  }

  /** A plain request lands on its names below the root. */
  lemma PlainLanding(root: string, lead: string, names: seq<string>)
    requires IsAbsolute(root)
    requires AllNames(names) && |names| > 0
    requires lead == "/" || (lead == "" && names[0][0] != '\\')
    ensures Landing(root, lead + Join(names, "/")) == PathOf(AbsSegs(root) + names)
    ensures AbsSegs(PathOf(AbsSegs(root) + names)) == AbsSegs(root) + names
  {
    var j := Join(names, "/");
    JoinStartsWithFirst(names, "/");
    assert j[0] == names[0][0] && names[0][0] in names[0];
    assert Normalize(lead + j) == lead + j by {
      if lead == "/" {
        NormalizeAbsoluteNames(names);
      } else {
        assert lead + j == j;
        NormalizeRelativeNames(names);
      }
    }
    assert StripLeadingSeparators(lead + j) == j by {
      if lead == "/" {
        assert (lead + j)[1..] == j;
      } else {
        assert lead + j == j;
      }
    }
    PathJoinNames(root, names);
  }

  /** Below the root, the check looks only at the first name. */
  lemma AdmittedBelow(rootSegs: seq<string>, names: seq<string>)
    requires |names| > 0
    ensures Admitted(rootSegs, rootSegs + names) <==> !StartsWith(names[0], "..")
  {
    assert (rootSegs + names)[|rootSegs|] == names[0];
    assert rootSegs <= rootSegs + names;
  }

  /** For such requests the leading `/` makes no difference: the request is always root-relative. */
  lemma LeadingSlashIgnored(root: string, names: seq<string>)
    requires IsAbsolute(root)
    requires AllNames(names) && |names| > 0 && names[0][0] != '\\'
    ensures JoinDecoded(root, "/" + Join(names, "/")) == JoinDecoded(root, Join(names, "/"))
  {
    PlainRequest(root, "/", names);
    PlainRequest(root, "", names);
    assert "" + Join(names, "/") == Join(names, "/");
  }

  // ---------------------------------------------------------------------------
  // Traversal

  lemma NormFromUpsAtRoot(n: nat)
    ensures NormFrom([], Ups(n), false) == []
  {
    if n > 0 {
      assert Ups(n)[1..] == Ups(n - 1);
      NormFromUpsAtRoot(n - 1);
    }
  }

  lemma UpsNamesNoSlash(n: nat, names: seq<string>)
    requires AllNames(names)
    ensures NoSlash(Ups(n) + names)
  {
    var parts := Ups(n) + names;
    forall i | 0 <= i < |parts|
      ensures '/' !in parts[i]
    {
      if i >= n {
        assert parts[i] == names[i - n];
      } else {
        assert parts[i] == "..";
      }
    }
  }

  lemma UpsNamesSplit(n: nat, names: seq<string>)
    requires AllNames(names) && |names| > 0
    ensures Split("/" + Join(Ups(n) + names, "/"), '/') == [""] + (Ups(n) + names)
  {
    var parts := Ups(n) + names;
    var j := Join(parts, "/");
    UpsNamesNoSlash(n, names);
    SplitLeadingSep(j, '/');
    SplitJoin(parts, '/');
  }

  lemma UpsNamesAbsSegs(n: nat, names: seq<string>)
    requires AllNames(names) && |names| > 0
    ensures AbsSegs("/" + Join(Ups(n) + names, "/")) == names
  {
    UpsNamesSplit(n, names);
    NormFromAppend([], [""], Ups(n) + names, false);
    NormFromAppend([], Ups(n), names, false);
    NormFromUpsAtRoot(n);
    NormFromNames([], names, false);
  }

  lemma UpsNamesNormalize(n: nat, names: seq<string>)
    requires AllNames(names) && |names| > 0
    ensures Normalize("/" + Join(Ups(n) + names, "/")) == "/" + Join(names, "/")
  {
    var parts := Ups(n) + names;
    var p := "/" + Join(parts, "/");
    UpsNamesAbsSegs(n, names);
    assert p[|p| - 1] != '/' by {
      JoinNamesLast(names);
      if n > 0 {
        JoinAppend(Ups(n), names, "/");
      } else {
        assert parts == names;
      }
    }
    NormalizeAbsolute(p);
  }

  /**
   Leading `..` segments of an absolute request collapse at `/` when it is normalised, so
   `/../../etc/passwd` lands on `etc/passwd` below the root: it is confined, not rejected.
   */
  lemma TraversalCollapses(root: string, n: nat, names: seq<string>)
    requires IsAbsolute(root)
    requires AllNames(names) && |names| > 0
    ensures JoinDecoded(root, "/" + Join(Ups(n) + names, "/")) ==
      if StartsWith(names[0], "..") then Rejected else Resolved(PathOf(AbsSegs(root) + names))
  {
    UpsNamesNormalize(n, names);
    NormalizeAbsoluteNames(names);
    SameNormalForm(root, "/" + Join(Ups(n) + names, "/"), "/" + Join(names, "/"));
    PlainRequest(root, "/", names);
  }

  /** Only the normal form of the decoded path matters. */
  lemma SameNormalForm(root: string, a: string, b: string)
    requires IsAbsolute(root)
    requires Normalize(a) == Normalize(b)
    ensures JoinDecoded(root, a) == JoinDecoded(root, b)
  {
  }

  lemma JoinFour(a: string, b: string, c: string, d: string, sep: string)
    ensures Join([a, b, c, d], sep) == a + sep + (b + sep + (c + sep + d))
  {
    assert [c, d][1..] == [d];
    assert Join([c, d], sep) == c + sep + d;
    assert [b, c, d][1..] == [c, d];
    assert Join([b, c, d], sep) == b + sep + Join([c, d], sep);
    assert [a, b, c, d][1..] == [b, c, d];
  }

  lemma EtcPasswdSpelling()
    ensures "/" + Join(Ups(2) + ["etc", "passwd"], "/") == "/../../etc/passwd"
  {
    assert Ups(2) + ["etc", "passwd"] == ["..", "..", "etc", "passwd"];
    JoinFour("..", "..", "etc", "passwd", "/");
    EtcPasswdChars();
  }

  lemma EtcPasswdChars()
    ensures "/" + (".." + "/" + (".." + "/" + ("etc" + "/" + "passwd"))) == "/../../etc/passwd"
  {
  }

  /** The classic traversal request resolves to `etc/passwd` under the root. */
  lemma EtcPasswdConfined(root: string)
    requires IsAbsolute(root)
    ensures JoinDecoded(root, "/../../etc/passwd") == Resolved(PathOf(AbsSegs(root) + ["etc", "passwd"]))
  {
    var names := ["etc", "passwd"];
    EtcPasswdSpelling();
    TraversalCollapses(root, 2, names);
    assert names[0][..2] == "et";
  }

  /** A top-level name that merely starts with two dots, such as `..foo`, is rejected too. */
  lemma DotDotNameRejected(root: string, name: string)
    requires IsAbsolute(root)
    requires IsName(name) && StartsWith(name, "..")
    ensures JoinDecoded(root, "/" + name) == Rejected
  {
    PlainRequest(root, "/", [name]);
  }
}

=== FILE: server.dfy ===
/**
 The request handler of the documentation server (scripts/serve.ts): how a request path
 becomes a response, after `safeJoin` and `fs.stat`.
 */
module Server {
  import opened Options
  import opened Strings
  import opened Paths
  import opened Html
  import opened FileTree
  import opened ContentType
  import opened Resolver
  import opened Listing

  /** The served root and the base directory listing headings are relative to, both absolute. */
  datatype Config = Config(root: string, baseDir: string)

  predicate ValidConfig(cfg: Config)
  {
    IsAbsolute(cfg.root) && IsAbsolute(cfg.baseDir)
  }

  /** A parsed request: the URL's path name and whether `?raw=1` was given. */
  datatype Request = Request(path: string, raw: bool)

  /** What the handler decides to do. */
  datatype Outcome =
    | Forbidden                                     // 403
    | NotFound                                      // 404
    | ServerError                                   // 500
    | RenderMarkdown(file: string, title: string)   // markdown rendered into a page
    | SendFile(file: string, contentType: string)   // the file's content as it is
    | ListDirectory(dir: string, urlPath: string)   // a generated index

  const HtmlType := "text/html; charset=utf-8"

  /** The names tried, in order, when a directory is requested. */
  const ReadmeCandidates := ["README.md", "readme.md", "Readme.md"]

  const IndexName := "index.html"

  /** `p` is the root or lies below it. */
  predicate Within(root: string, p: string)
  {
    AbsSegs(root) <= AbsSegs(p)
  }

  /** `dir` holds a regular file called `name`. */
  predicate HasFile(fs: Node, dir: string, name: string)
    requires IsAbsolute(dir)
  {
    PathJoinAbsolute(dir, name);
    IsFileAt(fs, PathJoin(dir, name))
  }

  /** The first of `names` that is a regular file in `dir`; directories of that name are skipped. */
  function FirstFile(fs: Node, dir: string, names: seq<string>): (r: Option<string>)
    requires IsAbsolute(dir)
    ensures r.None? <==> forall k :: 0 <= k < |names| ==> !HasFile(fs, dir, names[k])
    ensures r.Some? ==> exists k :: 0 <= k < |names| && names[k] == r.value && HasFile(fs, dir, names[k])
                                    && forall j :: 0 <= j < k ==> !HasFile(fs, dir, names[j])
  {
    if |names| == 0 then None
    else if HasFile(fs, dir, names[0]) then Some(names[0])
    else
      var r := FirstFile(fs, dir, names[1..]);
      if r.Some? then
        FirstInTail(fs, dir, names, r.value);
        r
      else
        NoneInTail(fs, dir, names);
        r
  }

  /** The first file of a list whose head is not one is the first file of its tail. */
  lemma FirstInTail(fs: Node, dir: string, names: seq<string>, v: string)
    requires IsAbsolute(dir) && |names| > 0 && !HasFile(fs, dir, names[0])
    requires exists k :: 0 <= k < |names[1..]| && names[1..][k] == v && HasFile(fs, dir, names[1..][k])
                         && forall j :: 0 <= j < k ==> !HasFile(fs, dir, names[1..][j])
    ensures exists k :: 0 <= k < |names| && names[k] == v && HasFile(fs, dir, names[k])
                        && forall j :: 0 <= j < k ==> !HasFile(fs, dir, names[j])
  {
    var k :| 0 <= k < |names[1..]| && names[1..][k] == v && HasFile(fs, dir, names[1..][k])
             && forall j :: 0 <= j < k ==> !HasFile(fs, dir, names[1..][j]);
    assert names[k + 1] == v && HasFile(fs, dir, names[k + 1]);
    forall j | 0 <= j < k + 1
      ensures !HasFile(fs, dir, names[j])
    {
      if j > 0 {
        assert names[j] == names[1..][j - 1];
      }
    }
  }

  lemma NoneInTail(fs: Node, dir: string, names: seq<string>)
    requires IsAbsolute(dir) && |names| > 0 && !HasFile(fs, dir, names[0])
    requires forall k :: 0 <= k < |names[1..]| ==> !HasFile(fs, dir, names[1..][k])
    ensures forall k :: 0 <= k < |names| ==> !HasFile(fs, dir, names[k])
  {
    assert forall k :: 1 <= k < |names| ==> names[k] == names[1..][k - 1];
  }

  lemma CandidatesAreNames()
    ensures forall k :: 0 <= k < |ReadmeCandidates| ==> IsName(ReadmeCandidates[k])
    ensures IsName(IndexName)
  {
    assert IsName("README.md") && IsName("readme.md") && IsName("Readme.md");
  }

  /** A README candidate or `index.html` that is a file in `dir` is a file one level below it. */
  lemma CandidateFile(fs: Node, dir: string, name: string)
    requires IsAbsolute(dir)
    requires name in ReadmeCandidates + [IndexName] && HasFile(fs, dir, name)
    ensures IsAbsolute(PathJoin(dir, name)) && IsFileAt(fs, PathJoin(dir, name))
    ensures exists k :: 0 <= k < |ReadmeCandidates| + 1
                        && AbsSegs(PathJoin(dir, name)) == AbsSegs(dir) + [(ReadmeCandidates + [IndexName])[k]]
  {
    CandidatesAreNames();
    var all := ReadmeCandidates + [IndexName];
    var k :| 0 <= k < |all| && all[k] == name;
    assert IsName(all[k]);
    PathJoinName(dir, name);
  }

  /** A requested directory: its first README, else its `index.html`, else a listing. */
  function DirectoryOutcome(fs: Node, abs: string, reqPath: string): (r: Outcome)
    requires IsAbsolute(abs)
    ensures r.RenderMarkdown? || r.SendFile? || r.ListDirectory?
    ensures r.RenderMarkdown? || r.SendFile? ==>
      && IsAbsolute(r.file) && IsFileAt(fs, r.file)
      && exists k :: 0 <= k < |ReadmeCandidates| + 1 && AbsSegs(r.file) == AbsSegs(abs) + [(ReadmeCandidates + [IndexName])[k]]
    ensures r.SendFile? ==> r.contentType == GetContentType(r.file)
    ensures r.ListDirectory? ==> r.dir == abs && EndsWith(r.urlPath, "/")
  {
    match FirstFile(fs, abs, ReadmeCandidates)
    case Some(name) =>
      CandidateFile(fs, abs, name);
      RenderMarkdown(PathJoin(abs, name), name)
    case None =>
      var idx := PathJoin(abs, IndexName);
      if HasFile(fs, abs, IndexName) then
        CandidateFile(fs, abs, IndexName);
        SendFile(idx, GetContentType(idx))
      else ListDirectory(abs, if EndsWith(reqPath, "/") then reqPath else reqPath + "/")
  }

  /** A requested regular file: markdown is rendered unless `raw`, anything else is sent. */
  function FileOutcome(abs: string, raw: bool): (r: Outcome)
    ensures r.RenderMarkdown? || r.SendFile?
    ensures r.file == abs
    ensures r.RenderMarkdown? <==> ToLower(Extname(abs)) == ".md" && !raw
    ensures r.SendFile? ==> r.contentType == GetContentType(abs)
  {
    if ToLower(Extname(abs)) == ".md" && !raw then RenderMarkdown(abs, Basename(abs))
    else SendFile(abs, GetContentType(abs))
  }

  /** The handler's decision for a request, given `decodeURIComponent` as `decode`. */
  function Handle(cfg: Config, fs: Node, req: Request, decode: string -> Option<string>): (r: Outcome)
    requires ValidConfig(cfg)
    ensures r == ServerError <==> decode(req.path).None?
    ensures r == Forbidden <==> SafeJoin(cfg.root, req.path, decode) == Rejected
    ensures r == NotFound <==> (SafeJoin(cfg.root, req.path, decode).Resolved?
                                && Stat(fs, SafeJoin(cfg.root, req.path, decode).abs).None?)
    ensures r.RenderMarkdown? || r.SendFile? ==>
      IsAbsolute(r.file) && IsFileAt(fs, r.file) && Within(cfg.root, r.file)
    ensures r.SendFile? ==> r.contentType == GetContentType(r.file)
    ensures r.ListDirectory? ==>
      && IsAbsolute(r.dir) && Stat(fs, r.dir).Some? && Stat(fs, r.dir).value.Dir?
      && Within(cfg.root, r.dir) && EndsWith(r.urlPath, "/")
  {
    match SafeJoin(cfg.root, req.path, decode)
    case DecodeFailed => ServerError
    case Rejected => Forbidden
    case Resolved(abs) =>
      match Stat(fs, abs)
      case None => NotFound
      case Some(node) =>
        if node.Dir? then
          var r := DirectoryOutcome(fs, abs, req.path);
          assert r.RenderMarkdown? || r.SendFile? ==> AbsSegs(abs) <= AbsSegs(r.file);
          r
        else FileOutcome(abs, req.raw)
  }

  // ---------------------------------------------------------------------------
  // Responses

  /** Status, `Content-Type` header (when one is set) and body. */
  datatype Response = Response(status: nat, contentType: Option<string>, body: string)

  function EntriesAt(fs: Node, p: string): seq<Entry>
    requires IsAbsolute(p) && Stat(fs, p).Some? && Stat(fs, p).value.Dir?
  {
    Stat(fs, p).value.entries
  }

  /** The paths an outcome names exist as the outcome needs them. */
  predicate Grounded(fs: Node, o: Outcome)
  {
    && (o.RenderMarkdown? || o.SendFile? ==> IsAbsolute(o.file) && IsFileAt(fs, o.file))
    && (o.ListDirectory? ==> IsAbsolute(o.dir) && Stat(fs, o.dir).Some? && Stat(fs, o.dir).value.Dir?)
  }

  /**
   The response for a decision. `markdown` stands for `marked.parse`, `le` for
   `localeCompare` and `encodeUri` for `encodeURI`.
   */
  function Render(baseDir: string, fs: Node, o: Outcome, markdown: string -> string,
                  le: (string, string) -> bool, encodeUri: string -> string): (r: Response)
    requires IsAbsolute(baseDir) && Grounded(fs, o)
    ensures r.status == 200 <==> r.contentType.Some?
    ensures r.status == 403 <==> o == Forbidden
    ensures r.status == 404 <==> o == NotFound
    ensures r.status == 500 <==> o == ServerError
    ensures o.RenderMarkdown? ==>
      r.contentType == Some(HtmlType) && r.body == WrapHtml(o.title, markdown(ContentAt(fs, o.file)))
    ensures o.SendFile? ==> r.contentType == Some(o.contentType) && r.body == ContentAt(fs, o.file)
    ensures o.ListDirectory? ==>
      r.contentType == Some(HtmlType)
      && r.body == ListingHtml(baseDir, o.dir, EntriesAt(fs, o.dir), o.urlPath, le, encodeUri)
  {
    match o
    case Forbidden => Response(403, None, "Forbidden")
    case NotFound => Response(404, None, "Not Found")
    case ServerError => Response(500, None, "Internal Server Error")
    case RenderMarkdown(file, title) =>
      Response(200, Some(HtmlType), WrapHtml(title, markdown(ContentAt(fs, file))))
    case SendFile(file, ctype) => Response(200, Some(ctype), ContentAt(fs, file))
    case ListDirectory(dir, urlPath) =>
      Response(200, Some(HtmlType), ListingHtml(baseDir, dir, EntriesAt(fs, dir), urlPath, le, encodeUri))
  }

  /** The response to a request. */
  function Respond(cfg: Config, fs: Node, req: Request, decode: string -> Option<string>,
                   markdown: string -> string, le: (string, string) -> bool,
                   encodeUri: string -> string): (r: Response)
    requires ValidConfig(cfg)
    ensures r.status == 403 <==> SafeJoin(cfg.root, req.path, decode) == Rejected
    ensures r.status == 500 <==> decode(req.path).None?
  {
    Render(cfg.baseDir, fs, Handle(cfg, fs, req, decode), markdown, le, encodeUri)
  }

  // ---------------------------------------------------------------------------
  // Properties of the decision

  /** A rejected or undecodable request is answered without looking at the file system. */
  lemma RejectionIgnoresFileSystem(cfg: Config, fs1: Node, fs2: Node, req: Request,
                                   decode: string -> Option<string>)
    requires ValidConfig(cfg)
    requires !SafeJoin(cfg.root, req.path, decode).Resolved?
    ensures Handle(cfg, fs1, req, decode) == Handle(cfg, fs2, req, decode)
  {
  }

  /** A directory with a README renders the first README candidate present, even with an `index.html`. */
  lemma DirectoryPrefersReadme(cfg: Config, fs: Node, req: Request, decode: string -> Option<string>, k: nat)
    requires ValidConfig(cfg)
    requires SafeJoin(cfg.root, req.path, decode).Resolved?
    requires var abs := SafeJoin(cfg.root, req.path, decode).abs;
      && Stat(fs, abs).Some? && Stat(fs, abs).value.Dir?
      && k < |ReadmeCandidates| && HasFile(fs, abs, ReadmeCandidates[k])
      && forall j :: 0 <= j < k ==> !HasFile(fs, abs, ReadmeCandidates[j])
    ensures var abs := SafeJoin(cfg.root, req.path, decode).abs;
      Handle(cfg, fs, req, decode) == RenderMarkdown(PathJoin(abs, ReadmeCandidates[k]), ReadmeCandidates[k])
  {
    var abs := SafeJoin(cfg.root, req.path, decode).abs;
    FirstFileIs(fs, abs, ReadmeCandidates, k);
  }

  /** `FirstFile` picks the earliest name present. */
  lemma FirstFileIs(fs: Node, dir: string, names: seq<string>, k: nat)
    requires IsAbsolute(dir)
    requires k < |names| && HasFile(fs, dir, names[k])
    requires forall j :: 0 <= j < k ==> !HasFile(fs, dir, names[j])
    ensures FirstFile(fs, dir, names) == Some(names[k])
  {
    var r := FirstFile(fs, dir, names);
    assert r.Some?;
    var first :| 0 <= first < |names| && names[first] == r.value && HasFile(fs, dir, names[first])
                 && forall j :: 0 <= j < first ==> !HasFile(fs, dir, names[j]);
    assert !(first < k) && !(k < first);
  }


  /**
   A directory without any README candidate serves its `index.html` as HTML when there is
   one, and is listed otherwise, under a URL path ending in `/`.
   */
  lemma DirectoryWithoutReadme(cfg: Config, fs: Node, req: Request, decode: string -> Option<string>)
    requires ValidConfig(cfg)
    requires SafeJoin(cfg.root, req.path, decode).Resolved?
    requires var abs := SafeJoin(cfg.root, req.path, decode).abs;
      && Stat(fs, abs).Some? && Stat(fs, abs).value.Dir?
      && forall j :: 0 <= j < |ReadmeCandidates| ==> !HasFile(fs, abs, ReadmeCandidates[j])
    ensures var abs := SafeJoin(cfg.root, req.path, decode).abs;
      Handle(cfg, fs, req, decode) ==
        if HasFile(fs, abs, IndexName) then SendFile(PathJoin(abs, IndexName), HtmlType)
        else ListDirectory(abs, if EndsWith(req.path, "/") then req.path else req.path + "/")
  {
    var abs := SafeJoin(cfg.root, req.path, decode).abs;
    assert FirstFile(fs, abs, ReadmeCandidates).None?;
    IndexType(abs);
  }

  /** `index.html` is always sent as HTML. */
  lemma IndexType(dir: string)
    requires IsAbsolute(dir)
    ensures GetContentType(PathJoin(dir, IndexName)) == HtmlType
  {
    var p := PathJoin(dir, IndexName);
    assert Basename(p) == IndexName by {
      CandidatesAreNames();
      PathJoinName(dir, IndexName);
      AbsSegsNames(dir);
      BasenameOfPathOf(AbsSegs(dir), IndexName);
    }
    IndexExtension();
    HtmlEntry();
    TypeOfTableExtension(p, ".html");
  }

  lemma HtmlEntry()
    ensures ToLower(".html") == ".html" && ".html" in MimeTable && MimeTable[".html"] == HtmlType
  {
  }

  lemma IndexExtension()
    ensures LastIndexOf(IndexName, '.') == 5 && IndexName[5..] == ".html"
  {
    assert LastIndexOf(IndexName, '.') == 5 by {
      assert IndexName[5] == '.' && IndexName[6..] == "html";
    }
    assert IndexName[5..] == ".html";
  }

  /** The base name of a path spelled from names is its last name. */
  lemma BasenameOfPathOf(segs: seq<string>, name: string)
    requires AllNames(segs) && IsName(name)
    ensures Basename(PathOf(segs + [name])) == name
  {
    var all := segs + [name];
    var p := PathOf(all);
    assert AllNames(all) by {
      forall i | 0 <= i < |all|
        ensures IsName(all[i])
      {
        if i == |segs| {
          assert all[i] == name;
        } else {
          assert all[i] == segs[i];
        }
      }
    }
    JoinNamesLast(all);
    assert TrimTrailingSlashes(p) == p;
    SplitLeadingSep(Join(all, "/"), '/');
    SplitJoin(all, '/');
    assert Split(p, '/') == [""] + all;
  }

  /** A regular file whose extension is `.md` in any letter case is rendered, unless `raw` is asked for. */
  lemma MarkdownRendered(cfg: Config, fs: Node, req: Request, decode: string -> Option<string>)
    requires ValidConfig(cfg)
    requires SafeJoin(cfg.root, req.path, decode).Resolved?
    requires var abs := SafeJoin(cfg.root, req.path, decode).abs;
      IsFileAt(fs, abs) && ToLower(Extname(abs)) == ".md"
    ensures var abs := SafeJoin(cfg.root, req.path, decode).abs;
      Handle(cfg, fs, req, decode) ==
        if req.raw then SendFile(abs, MimeTable[".md"]) else RenderMarkdown(abs, Basename(abs))
  {
  }

  /** With `?raw=1` a markdown file is sent with its content unchanged, as `text/markdown`. */
  lemma RawMarkdownVerbatim(cfg: Config, fs: Node, req: Request, decode: string -> Option<string>,
                            markdown: string -> string, le: (string, string) -> bool,
                            encodeUri: string -> string)
    requires ValidConfig(cfg) && req.raw
    requires SafeJoin(cfg.root, req.path, decode).Resolved?
    requires var abs := SafeJoin(cfg.root, req.path, decode).abs;
      IsFileAt(fs, abs) && ToLower(Extname(abs)) == ".md"
    ensures var abs := SafeJoin(cfg.root, req.path, decode).abs;
      Respond(cfg, fs, req, decode, markdown, le, encodeUri) ==
        Response(200, Some("text/markdown; charset=utf-8"), ContentAt(fs, abs))
  {
    var abs := SafeJoin(cfg.root, req.path, decode).abs;
    MarkdownRendered(cfg, fs, req, decode);
    MarkdownType();
    assert Handle(cfg, fs, req, decode) == SendFile(abs, "text/markdown; charset=utf-8");
  }

  lemma MarkdownType()
    ensures MimeTable[".md"] == "text/markdown; charset=utf-8"
  {
  }

  /** A rendered page's title is the HTML-escaped title, which unescapes back to it. */
  lemma RenderedTitleEscaped(baseDir: string, fs: Node, file: string, title: string,
                             markdown: string -> string, le: (string, string) -> bool,
                             encodeUri: string -> string)
    requires IsAbsolute(baseDir) && IsAbsolute(file) && IsFileAt(fs, file)
    ensures var page := Render(baseDir, fs, RenderMarkdown(file, title), markdown, le, encodeUri).body;
      var t := EscapeHtml(title);
      && page[|WrapHead|..|WrapHead| + |t|] == t
      && '<' !in t && UnescapeHtml(t) == title
  {
    var page := WrapHtml(title, markdown(ContentAt(fs, file)));
    assert Render(baseDir, fs, RenderMarkdown(file, title), markdown, le, encodeUri).body == page;
  }

  /**
   End to end: a request for names that lead to a regular file below the root, which is not
   markdown, is answered with that file and the type of its extension.
   */
  lemma ServesFileBelowRoot(cfg: Config, fs: Node, req: Request, decode: string -> Option<string>,
                            names: seq<string>)
    requires ValidConfig(cfg)
    requires AllNames(names) && |names| > 0 && !StartsWith(names[0], "..")
    requires decode(req.path) == Some("/" + Join(names, "/"))
    requires var file := PathOf(AbsSegs(cfg.root) + names);
      IsFileAt(fs, file) && ToLower(Extname(file)) != ".md"
    ensures var file := PathOf(AbsSegs(cfg.root) + names);
      Handle(cfg, fs, req, decode) == SendFile(file, GetContentType(file))
  {
    var file := PathOf(AbsSegs(cfg.root) + names);
    PlainRequest(cfg.root, "/", names);
    assert SafeJoin(cfg.root, req.path, decode) == Resolved(file);
    HandleFile(cfg, fs, req, decode, file);
  }

  /** A request resolved to a regular file is decided by the file alone. */
  lemma HandleFile(cfg: Config, fs: Node, req: Request, decode: string -> Option<string>, abs: string)
    requires ValidConfig(cfg)
    requires SafeJoin(cfg.root, req.path, decode) == Resolved(abs) && IsFileAt(fs, abs)
    ensures Handle(cfg, fs, req, decode) == FileOutcome(abs, req.raw)
  {
  }

  /** End to end: names that lead nowhere below the root are answered 404. */
  lemma MissingBelowRoot(cfg: Config, fs: Node, req: Request, decode: string -> Option<string>,
                         names: seq<string>)
    requires ValidConfig(cfg)
    requires AllNames(names) && |names| > 0 && !StartsWith(names[0], "..")
    requires decode(req.path) == Some("/" + Join(names, "/"))
    requires Lookup(fs, AbsSegs(cfg.root) + names).None?
    ensures Handle(cfg, fs, req, decode) == NotFound
  {
    var F := AbsSegs(cfg.root);
    var file := PathOf(F + names);
    PlainRequest(cfg.root, "/", names);
    assert SafeJoin(cfg.root, req.path, decode) == Resolved(file);
    assert Stat(fs, file).None? by {
      PathJoinNames(cfg.root, names);
      assert AbsSegs(file) == F + names;
    }
  }
}

=== FILE: sort_docs.dfy ===
/**
 `sortDocs` of the documentation concatenator (scripts/concat-docs.ts): the order in which
 the files of one language directory are combined.
 */
module SortDocs {
  import opened Strings
  import opened Paths
  import opened Sorting

  /** A file with its path relative to the language directory, `/`-separated. */
  datatype Doc = Doc(abs: string, rel: string)

  /**
   `path.relative(langDir, p).replace(/\\/g, '/')`: empty exactly when `p` is the directory
   itself, and never `.`.
   */
  function RelTo(langDir: string, p: string): (r: string)
    requires IsAbsolute(langDir) && IsAbsolute(p)
    ensures r == "" <==> AbsSegs(langDir) == AbsSegs(p)
    ensures r != "."
  {
    var rel := Relative(langDir, p);
    if rel == "" then ReplaceChar(rel, '\\', "/")
    else
      ReplaceCharNotDot(rel);
      ReplaceChar(rel, '\\', "/")
  }

  /** `rel.split('/').length`: 1 for a file directly in the directory, 2 one level down, and so on. */
  function Depth(rel: string): (r: nat)
    ensures r >= 1
  {
    |Split(rel, '/')|
  }

  /** `p` resolves to the language directory's own `README.md` (letter case matters). */
  predicate IsRootReadme(langDir: string, p: string)
  {
    Resolve(p) == Resolve(PathJoin(langDir, "README.md"))
  }

  /**
   The comparator, as "`a` may come before `b`" (it returns at most 0): the root README
   first, then by depth, then by the collation `le` of the relative paths.
   */
  function DocBefore(langDir: string, le: (string, string) -> bool): (r: (Doc, Doc) -> bool)
    ensures forall a: Doc, b: Doc :: IsRootReadme(langDir, a.abs) && !IsRootReadme(langDir, b.abs) ==>
      r(a, b) && !r(b, a)
    ensures forall a: Doc, b: Doc ::
      IsRootReadme(langDir, a.abs) == IsRootReadme(langDir, b.abs) && Depth(a.rel) < Depth(b.rel) ==>
      r(a, b) && !r(b, a)
    ensures forall a: Doc, b: Doc ::
      IsRootReadme(langDir, a.abs) == IsRootReadme(langDir, b.abs) && Depth(a.rel) == Depth(b.rel) ==>
      (r(a, b) <==> le(a.rel, b.rel))
  {
    (a: Doc, b: Doc) =>
      var ra := IsRootReadme(langDir, a.abs);
      var rb := IsRootReadme(langDir, b.abs);
      if ra != rb then ra
      else if Depth(a.rel) != Depth(b.rel) then Depth(a.rel) < Depth(b.rel)
      else le(a.rel, b.rel)
  }

  /** `filePaths.map((abs) => ({ abs, rel: rel(abs) }))`. */
  function WithMeta(filePaths: seq<string>, langDir: string): (r: seq<Doc>)
    requires IsAbsolute(langDir) && forall i :: 0 <= i < |filePaths| ==> IsAbsolute(filePaths[i])
    ensures |r| == |filePaths|
    ensures forall i :: 0 <= i < |r| ==> r[i] == Doc(filePaths[i], RelTo(langDir, filePaths[i]))
  {
    if |filePaths| == 0 then []
    else [Doc(filePaths[0], RelTo(langDir, filePaths[0]))] + WithMeta(filePaths[1..], langDir)
  }

  function SortedMeta(filePaths: seq<string>, langDir: string, le: (string, string) -> bool): (r: seq<Doc>)
    requires IsAbsolute(langDir) && forall i :: 0 <= i < |filePaths| ==> IsAbsolute(filePaths[i])
  {
    InsertionSort(WithMeta(filePaths, langDir), DocBefore(langDir, le))
  }

  /**
   `sortDocs(filePaths, langDir)`, with `localeCompare` as the collation `le`: a reordering
   that neither drops nor duplicates a file.
   */
  function Sort(filePaths: seq<string>, langDir: string, le: (string, string) -> bool): (r: seq<string>)
    requires IsAbsolute(langDir) && forall i :: 0 <= i < |filePaths| ==> IsAbsolute(filePaths[i])
    ensures multiset(r) == multiset(filePaths)
    ensures forall i :: 0 <= i < |r| ==> r[i] in filePaths && IsAbsolute(r[i])
  {
    var r := MapSeq(SortedMeta(filePaths, langDir, le), AbsOf);
    SortedMetaPermutes(filePaths, langDir, le);
    SameMembers(r, filePaths);
    r
  }

  function AbsOf(d: Doc): string
  {
    d.abs
  }

  /** The sorted records carry the input paths, each as often as it occurs. */
  lemma SortedMetaPermutes(filePaths: seq<string>, langDir: string, le: (string, string) -> bool)
    requires IsAbsolute(langDir) && forall i :: 0 <= i < |filePaths| ==> IsAbsolute(filePaths[i])
    ensures multiset(MapSeq(SortedMeta(filePaths, langDir, le), AbsOf)) == multiset(filePaths)
  {
    var metas := WithMeta(filePaths, langDir);
    MapPermutation(SortedMeta(filePaths, langDir, le), metas, AbsOf);
    assert MapSeq(metas, AbsOf) == filePaths;
  }

  lemma SameMembers(a: seq<string>, b: seq<string>)
    requires multiset(a) == multiset(b)
    ensures forall i :: 0 <= i < |a| ==> a[i] in b
  {
    forall i | 0 <= i < |a|
      ensures a[i] in b
    {
      assert a[i] in multiset(a);
    }
  }

  /** Readme flag, then depth, then `le`, compared lexicographically, is again a total preorder. */
  lemma DocBeforeTotal(langDir: string, le: (string, string) -> bool)
    requires TotalPreorder(le)
    ensures TotalPreorder(DocBefore(langDir, le))
  {
    var cmp := DocBefore(langDir, le);
    forall a: Doc, b: Doc
      ensures cmp(a, b) || cmp(b, a)
    {
      assert le(a.rel, b.rel) || le(b.rel, a.rel);
    }
    forall a: Doc, b: Doc, c: Doc | cmp(a, b) && cmp(b, c)
      ensures cmp(a, c)
    {
      if IsRootReadme(langDir, a.abs) == IsRootReadme(langDir, b.abs) == IsRootReadme(langDir, c.abs)
         && Depth(a.rel) == Depth(b.rel) == Depth(c.rel) {
        assert le(a.rel, b.rel) && le(b.rel, c.rel);
      }
    }
  }

  /**
   The order of the result: for any two files, the earlier one is the root README if the later
   one is; among files that are both or neither, the earlier is no deeper; and at equal depth
   the earlier comes first in the collation.
   */
  lemma SortOrder(filePaths: seq<string>, langDir: string, le: (string, string) -> bool)
    requires IsAbsolute(langDir) && forall i :: 0 <= i < |filePaths| ==> IsAbsolute(filePaths[i])
    requires TotalPreorder(le)
    ensures var r := Sort(filePaths, langDir, le);
      forall i, j :: 0 <= i < j < |r| ==>
        && IsAbsolute(r[i]) && IsAbsolute(r[j])
        && (IsRootReadme(langDir, r[j]) ==> IsRootReadme(langDir, r[i]))
        && (IsRootReadme(langDir, r[i]) == IsRootReadme(langDir, r[j]) ==>
              Depth(RelTo(langDir, r[i])) <= Depth(RelTo(langDir, r[j])))
        && (IsRootReadme(langDir, r[i]) == IsRootReadme(langDir, r[j])
            && Depth(RelTo(langDir, r[i])) == Depth(RelTo(langDir, r[j])) ==>
              le(RelTo(langDir, r[i]), RelTo(langDir, r[j])))
  {
    var metas := WithMeta(filePaths, langDir);
    var cmp := DocBefore(langDir, le);
    var sorted := SortedMeta(filePaths, langDir, le);
    var r := Sort(filePaths, langDir, le);
    DocBeforeTotal(langDir, le);
    InsertionSortSorted(metas, cmp);
    forall k | 0 <= k < |sorted|
      ensures IsAbsolute(sorted[k].abs) && sorted[k].rel == RelTo(langDir, sorted[k].abs)
    {
      assert sorted[k] in multiset(metas);
      var m :| 0 <= m < |metas| && metas[m] == sorted[k];
    }
    forall i, j | 0 <= i < j < |r|
      ensures IsAbsolute(r[i]) && IsAbsolute(r[j])
      ensures IsRootReadme(langDir, r[j]) ==> IsRootReadme(langDir, r[i])
      ensures IsRootReadme(langDir, r[i]) == IsRootReadme(langDir, r[j]) ==>
              Depth(RelTo(langDir, r[i])) <= Depth(RelTo(langDir, r[j]))
      ensures IsRootReadme(langDir, r[i]) == IsRootReadme(langDir, r[j])
              && Depth(RelTo(langDir, r[i])) == Depth(RelTo(langDir, r[j])) ==>
              le(RelTo(langDir, r[i]), RelTo(langDir, r[j]))
    {
      assert cmp(sorted[i], sorted[j]);
    }
  }

  /** When the root README is among the files, it comes first, whatever the collation `le`. */
  lemma ReadmeFirst(filePaths: seq<string>, langDir: string, le: (string, string) -> bool, k: nat)
    requires IsAbsolute(langDir) && forall i :: 0 <= i < |filePaths| ==> IsAbsolute(filePaths[i])
    requires k < |filePaths| && IsRootReadme(langDir, filePaths[k])
    ensures IsRootReadme(langDir, Sort(filePaths, langDir, le)[0])
  {
    var metas := WithMeta(filePaths, langDir);
    var cmp := DocBefore(langDir, le);
    var readme := (d: Doc) => IsRootReadme(langDir, d.abs);
    assert Favours(cmp, readme);
    assert readme(metas[k]);
    InsertionSortFront(metas, cmp, readme, k);
  }

  /** A file below the language directory has the names in between as its relative path. */
  lemma RelBelow(langDir: string, names: seq<string>)
    requires IsAbsolute(langDir)
    requires AllNames(names) && |names| > 0 && forall i :: 0 <= i < |names| ==> '\\' !in names[i]
    ensures RelTo(langDir, PathOf(AbsSegs(langDir) + names)) == Join(names, "/")
    ensures Depth(RelTo(langDir, PathOf(AbsSegs(langDir) + names))) == |names|
  {
    var F := AbsSegs(langDir);
    AbsSegsNames(langDir);
    assert AllNames(F + names);
    AbsSegsOfPathOf(F + names);
    RelativeToDescendant(F, names);
    NoBackslashJoin(names);
    ReplaceCharAbsent(Join(names, "/"), '\\', "/");
    SplitJoin(names, '/');
  }

  /** The root README is the file `README.md` directly in the language directory, and no other. */
  lemma RootReadmeExact(langDir: string, names: seq<string>)
    requires IsAbsolute(langDir) && AllNames(names)
    ensures IsRootReadme(langDir, PathOf(AbsSegs(langDir) + names)) <==> names == ["README.md"]
  {
    var F := AbsSegs(langDir);
    AbsSegsNames(langDir);
    assert AllNames(F + names);
    AbsSegsOfPathOf(F + names);
    assert IsName("README.md");
    PathJoinName(langDir, "README.md");
    AbsSegsOfPathOf(F + ["README.md"]);
    if IsRootReadme(langDir, PathOf(F + names)) {
      assert AbsSegs(PathOf(F + names)) == AbsSegs(PathOf(F + ["README.md"]));
      assert F + names == F + ["README.md"];
      assert names == (F + names)[|F|..];
    }
  }
}

=== FILE: sorting.dfy ===
/**
 `Array.prototype.sort` with a comparator, as a stable insertion sort over a total preorder
 `le` (`le(a, b)` when the comparator puts `a` no later than `b`, that is, returns <= 0).
 */
module Sorting {

  /** `le` is total and transitive: a consistent comparator such as `localeCompare`. */
  ghost predicate TotalPreorder<T(!new)>(le: (T, T) -> bool)
  {
    && (forall a, b :: le(a, b) || le(b, a))
    && (forall a, b, c :: le(a, b) && le(b, c) ==> le(a, c))
  }

  predicate SortedBy<T>(s: seq<T>, le: (T, T) -> bool)
  {
    forall i, j :: 0 <= i < j < |s| ==> le(s[i], s[j])
  }

  /** Puts `x` after every element of `s` that is not strictly after it (so equal keys keep their order). */
  function Insert<T>(x: T, s: seq<T>, le: (T, T) -> bool): (r: seq<T>)
    ensures multiset(r) == multiset(s) + multiset{x}
    ensures |r| == |s| + 1
  {
    if |s| == 0 then [x]
    else if !le(s[0], x) then [x] + s
    else
      var r := [s[0]] + Insert(x, s[1..], le);
      assert s == [s[0]] + s[1..];
      r
  }

  /** The input, reordered: sorting keeps every element, as many times as it occurs. */
  function InsertionSort<T>(s: seq<T>, le: (T, T) -> bool): (r: seq<T>)
    ensures multiset(r) == multiset(s)
    ensures |r| == |s|
  {
    if |s| == 0 then []
    else
      var r := Insert(s[|s| - 1], InsertionSort(s[..|s| - 1], le), le);
      assert s == s[..|s| - 1] + [s[|s| - 1]];
      r
  }

  lemma {:induction false} InsertSorted<T(!new)>(x: T, s: seq<T>, le: (T, T) -> bool)
    requires TotalPreorder(le)
    requires SortedBy(s, le)
    ensures SortedBy(Insert(x, s, le), le)
    decreases |s|
  {
    if |s| > 0 {
      if !le(s[0], x) {
        assert le(x, s[0]);
        forall j | 0 <= j < |s|
          ensures le(x, s[j])
        {
          if j > 0 {
            assert le(s[0], s[j]);
          }
        }
        var r := [x] + s;
        forall i, j | 0 <= i < j < |r|
          ensures le(r[i], r[j])
        {
          if i > 0 {
            assert r[i] == s[i - 1] && r[j] == s[j - 1];
          }
        }
      } else {
        var rest := s[1..];
        assert SortedBy(rest, le) by {
          forall i, j | 0 <= i < j < |rest|
            ensures le(rest[i], rest[j])
          {
            assert rest[i] == s[i + 1] && rest[j] == s[j + 1];
          }
        }
        InsertSorted(x, rest, le);
        var ins := Insert(x, rest, le);
        forall k | 0 <= k < |ins|
          ensures le(s[0], ins[k])
        {
          assert ins[k] in multiset(ins);
          assert ins[k] in multiset(rest) || ins[k] == x;
          if ins[k] != x {
            var j :| 0 <= j < |rest| && rest[j] == ins[k];
            assert s[j + 1] == ins[k];
          }
        }
        var r := [s[0]] + ins;
        forall i, j | 0 <= i < j < |r|
          ensures le(r[i], r[j])
        {
          if i > 0 {
            assert r[i] == ins[i - 1] && r[j] == ins[j - 1];
          } else {
            assert r[j] == ins[j - 1];
          }
        }
      }
    }
  }

  /** Over a total preorder, the sort's output is in order. */
  lemma {:induction false} InsertionSortSorted<T(!new)>(s: seq<T>, le: (T, T) -> bool)
    requires TotalPreorder(le)
    ensures SortedBy(InsertionSort(s, le), le)
    decreases |s|
  {
    if |s| > 0 {
      InsertionSortSorted(s[..|s| - 1], le);
      InsertSorted(s[|s| - 1], InsertionSort(s[..|s| - 1], le), le);
    }
  }

  /** `le` puts every element with property `p` strictly before every element without it. */
  ghost predicate Favours<T(!new)>(le: (T, T) -> bool, p: T -> bool)
  {
    forall a, b :: p(a) && !p(b) ==> le(a, b) && !le(b, a)
  }

  /** Inserting keeps a favoured element in front: if `x` or the old front has `p`, the new front has it. */
  lemma InsertFront<T(!new)>(x: T, s: seq<T>, le: (T, T) -> bool, p: T -> bool)
    requires Favours(le, p)
    requires p(x) || (|s| > 0 && p(s[0]))
    ensures p(Insert(x, s, le)[0])
  {
  }

  /**
   Whatever the comparator does otherwise, when it favours `p` and some element has `p`,
   the sort's first element has `p`: no total preorder is needed for this.
   */
  lemma {:induction false} InsertionSortFront<T(!new)>(s: seq<T>, le: (T, T) -> bool, p: T -> bool, k: nat)
    requires Favours(le, p)
    requires k < |s| && p(s[k])
    ensures p(InsertionSort(s, le)[0])
    decreases |s|
  {
    var init := s[..|s| - 1];
    var x := s[|s| - 1];
    if k < |s| - 1 {
      assert init[k] == s[k];
      InsertionSortFront(init, le, p, k);
    }
    InsertFront(x, InsertionSort(init, le), le, p);
  }

  /** `xs.map(f)`. */
  function MapSeq<T, U>(xs: seq<T>, f: T -> U): (r: seq<U>)
    ensures |r| == |xs|
    ensures forall i :: 0 <= i < |xs| ==> r[i] == f(xs[i])
  {
    if |xs| == 0 then [] else [f(xs[0])] + MapSeq(xs[1..], f)
  }

  lemma MapSeqAppend<T, U>(xs: seq<T>, ys: seq<T>, f: T -> U)
    ensures MapSeq(xs + ys, f) == MapSeq(xs, f) + MapSeq(ys, f)
  {
  }

  /** Taking the element at `j` out of `ys` removes one copy of it. */
  lemma RemoveAt<T>(ys: seq<T>, j: nat)
    requires j < |ys|
    ensures multiset(ys) == multiset(ys[..j] + ys[j + 1..]) + multiset{ys[j]}
  {
    var a, b := ys[..j], ys[j + 1..];
    assert ys == a + [ys[j]] + b;
  }

  /** One copy of `x` cancels from both sides of a multiset equality. */
  lemma Cancel<T>(a: multiset<T>, b: multiset<T>, x: T)
    requires a + multiset{x} == b + multiset{x}
    ensures a == b
  {
    forall y
      ensures a[y] == b[y]
    {
      assert (a + multiset{x})[y] == (b + multiset{x})[y];
    }
  }

  /** Mapping `ys` without its element at `j` gives the mapped `ys` without its element at `j`. */
  lemma MapSkip<T, U>(ys: seq<T>, j: nat, f: T -> U)
    requires j < |ys|
    ensures MapSeq(ys[..j] + ys[j + 1..], f) == MapSeq(ys, f)[..j] + MapSeq(ys, f)[j + 1..]
  {
    var m, ys' := MapSeq(ys, f), ys[..j] + ys[j + 1..];
    forall i | 0 <= i < |ys'|
      ensures MapSeq(ys', f)[i] == (m[..j] + m[j + 1..])[i]
    {
      if i < j {
        assert ys'[i] == ys[i];
      } else {
        assert ys'[i] == ys[i + 1];
      }
    }
  }

  /** Mapping `ys` gives the mapped `ys` without its element at `j`, plus that element mapped. */
  lemma MapRemoveAt<T, U>(ys: seq<T>, j: nat, f: T -> U)
    requires j < |ys|
    ensures multiset(MapSeq(ys, f)) == multiset(MapSeq(ys[..j] + ys[j + 1..], f)) + multiset{f(ys[j])}
  {
    MapSkip(ys, j, f);
    RemoveAt(MapSeq(ys, f), j);
  }

  /** Mapping a permutation gives a permutation of the mapped sequence. */
  lemma {:induction false} MapPermutation<T, U>(xs: seq<T>, ys: seq<T>, f: T -> U)
    requires multiset(xs) == multiset(ys)
    ensures multiset(MapSeq(xs, f)) == multiset(MapSeq(ys, f))
    decreases |xs|
  {
    if |xs| == 0 {
      assert |ys| == 0;
    } else {
      var n := |xs| - 1;
      var x := xs[n];
      var xs' := xs[..n];
      assert xs == xs' + [x];
      assert x in multiset(ys);
      var j :| 0 <= j < |ys| && ys[j] == x;
      var ys' := ys[..j] + ys[j + 1..];
      RemoveAt(ys, j);
      Cancel(multiset(xs'), multiset(ys'), x);
      MapRemoveAt(ys, j, f);
      MapPermutation(xs', ys', f);
      MapSeqAppend(xs', [x], f);
    }
  }


}

=== FILE: strings.dfy ===
/**
 JavaScript string operations the two scripts rely on, over `string` (a `seq<char>`):
 `split` with a one-character separator, `Array.prototype.join`, `startsWith`,
 `endsWith`, ASCII `toLowerCase`, global `replace` and `trimEnd`.
 */
module Strings {

  /** `s.split(sep)` for a one-character separator: there is always at least one piece. */
  function Split(s: string, sep: char): (r: seq<string>)
    ensures |r| >= 1
    ensures forall i :: 0 <= i < |r| ==> sep !in r[i]
    decreases |s|
  {
    if |s| == 0 then [""]
    else if s[0] == sep then [""] + Split(s[1..], sep)
    else
      var rest := Split(s[1..], sep);
      [[s[0]] + rest[0]] + rest[1..]
  }

  /** `parts.join(sep)`. */
  function Join(parts: seq<string>, sep: string): string
  {
    if |parts| == 0 then ""
    else if |parts| == 1 then parts[0]
    else parts[0] + sep + Join(parts[1..], sep)
  }

  /** Concatenation of all parts, `parts.join('')`. */
  function Concat(parts: seq<string>): string
  {
    if |parts| == 0 then "" else parts[0] + Concat(parts[1..])
  }

  predicate StartsWith(s: string, prefix: string)
  {
    |prefix| <= |s| && s[..|prefix|] == prefix
  }

  predicate EndsWith(s: string, suffix: string)
  {
    |suffix| <= |s| && s[|s| - |suffix|..] == suffix
  }

  /** `String.prototype.toLowerCase` restricted to ASCII letters; every other character is kept. */
  function LowerChar(c: char): (r: char)
  {
    if 'A' <= c <= 'Z' then (c as int - 'A' as int + 'a' as int) as char else c
  }

  function UpperChar(c: char): (r: char)
  {
    if 'a' <= c <= 'z' then (c as int - 'a' as int + 'A' as int) as char else c
  }

  function ToLower(s: string): (r: string)
    ensures |r| == |s|
    ensures forall i :: 0 <= i < |s| ==> r[i] == LowerChar(s[i])
  {
    if |s| == 0 then "" else [LowerChar(s[0])] + ToLower(s[1..])
  }

  function ToUpper(s: string): (r: string)
    ensures |r| == |s|
    ensures forall i :: 0 <= i < |s| ==> r[i] == UpperChar(s[i])
  {
    if |s| == 0 then "" else [UpperChar(s[0])] + ToUpper(s[1..])
  }

  /** `s.replace(/c/g, rep)`: every occurrence of the character `c` becomes `rep`. */
  function ReplaceChar(s: string, c: char, rep: string): (r: string)
    ensures c !in rep ==> c !in r
  {
    if |s| == 0 then ""
    else (if s[0] == c then rep else [s[0]]) + ReplaceChar(s[1..], c, rep)
  }

  /** `s.replace(/pat/g, rep)`: a left-to-right scan replacing non-overlapping occurrences. */
  function ReplaceAll(s: string, pat: string, rep: string): string
    requires |pat| > 0
    decreases |s|
  {
    if |s| == 0 then ""
    else if StartsWith(s, pat) then rep + ReplaceAll(s[|pat|..], pat, rep)
    else [s[0]] + ReplaceAll(s[1..], pat, rep)
  }

  /** The pieces of `xs` that are not empty, in order (`.filter(Boolean)` on strings). */
  function NonEmpty(xs: seq<string>): (r: seq<string>)
    ensures forall i :: 0 <= i < |r| ==> r[i] != ""
    ensures forall x :: x in r <==> x in xs && x != ""
  {
    if |xs| == 0 then []
    else if xs[0] == "" then NonEmpty(xs[1..])
    else [xs[0]] + NonEmpty(xs[1..])
  }

  /** JavaScript's WhiteSpace and LineTerminator characters, the set `trimEnd` removes. */
  predicate IsJsSpace(c: char)
  {
    || c == '\t' || c == '\n' || c == '\U{000B}' || c == '\U{000C}' || c == '\r' || c == ' '
    || c == '\U{00A0}' || c == '\U{1680}' || ('\U{2000}' <= c <= '\U{200A}')
    || c == '\U{2028}' || c == '\U{2029}' || c == '\U{202F}' || c == '\U{205F}'
    || c == '\U{3000}' || c == '\U{FEFF}'
  }

  /** `s.trimEnd()`: the longest prefix of `s` that does not end in white space. */
  function TrimEnd(s: string): (r: string)
    ensures r <= s
    ensures |r| == 0 || !IsJsSpace(r[|r| - 1])
    ensures forall i :: |r| <= i < |s| ==> IsJsSpace(s[i])
  {
    if |s| > 0 && IsJsSpace(s[|s| - 1]) then TrimEnd(s[..|s| - 1]) else s
  }

  /** The number of occurrences of `c` in `s`. */
  function Count(s: string, c: char): (r: nat)
    ensures r <= |s|
    ensures r == 0 <==> c !in s
  {
    if |s| == 0 then 0 else (if s[0] == c then 1 else 0) + Count(s[1..], c)
  }

  lemma CountAppend(a: string, b: string, c: char)
    ensures Count(a + b, c) == Count(a, c) + Count(b, c)
  {
    if |a| > 0 {
      assert (a + b)[0] == a[0];
      assert (a + b)[1..] == a[1..] + b;
      CountAppend(a[1..], b, c);
    } else {
      assert a + b == b;
    }
  }

  // ---------------------------------------------------------------------------
  // Split and Join

  /** Splitting a string without the separator gives the string itself. */
  lemma SplitNoSep(s: string, sep: char)
    requires sep !in s
    ensures Split(s, sep) == [s]
    decreases |s|
  {
    if |s| > 0 {
      SplitNoSep(s[1..], sep);
      assert [s[0]] + s[1..] == s;
    }
  }

  /** A leading separator contributes an empty first piece. */
  lemma SplitLeadingSep(b: string, sep: char)
    ensures Split([sep] + b, sep) == [""] + Split(b, sep)
  {
    assert ([sep] + b)[1..] == b;
  }

  /** Splitting at a separator splits the two sides independently. */
  lemma {:induction false} SplitAppend(a: string, sep: char, b: string)
    ensures Split(a + [sep] + b, sep) == Split(a, sep) + Split(b, sep)
    decreases |a|
  {
    var s := a + [sep] + b;
    if |a| == 0 {
      assert s == [sep] + b;
      assert s[1..] == b;
    } else {
      assert s[0] == a[0];
      assert s[1..] == a[1..] + [sep] + b;
      SplitAppend(a[1..], sep, b);
    }
  }

  lemma JoinAppend(xs: seq<string>, ys: seq<string>, sep: string)
    requires |xs| > 0 && |ys| > 0
    ensures Join(xs + ys, sep) == Join(xs, sep) + sep + Join(ys, sep)
    decreases |xs|
  {
    if |xs| == 1 {
      assert (xs + ys)[1..] == ys;
    } else {
      assert (xs + ys)[1..] == xs[1..] + ys;
      JoinAppend(xs[1..], ys, sep);
      assert Join(xs + ys, sep) == xs[0] + sep + Join(xs[1..] + ys, sep);
    }
  }

  /** Split inverts Join when no part contains the separator. */
  lemma SplitJoin(parts: seq<string>, sep: char)
    requires |parts| > 0
    requires forall i :: 0 <= i < |parts| ==> sep !in parts[i]
    ensures Split(Join(parts, [sep]), sep) == parts
    decreases |parts|
  {
    if |parts| == 1 {
      SplitNoSep(parts[0], sep);
    } else {
      SplitJoin(parts[1..], sep);
      SplitAppend(parts[0], sep, Join(parts[1..], [sep]));
      SplitNoSep(parts[0], sep);
      assert [parts[0]] + parts[1..] == parts;
    }
  }

  /** Replacing `\\` by `/` neither empties a string nor turns it into `.`. */
  lemma ReplaceCharNotDot(s: string)
    requires s != "" && s != "."
    ensures ReplaceChar(s, '\\', "/") != "" && ReplaceChar(s, '\\', "/") != "."
  {
    assert s == [s[0]] + s[1..];
    ReplaceCharAppend([s[0]], s[1..], '\\', "/");
    if |s| > 1 {
      assert s[1..] == [s[1]] + s[2..];
      ReplaceCharAppend([s[1]], s[2..], '\\', "/");
    }
  }

  /** The last piece of a split is a suffix of the string, either all of it or following a separator. */
  lemma LastPiece(s: string, sep: char)
    ensures var pieces := Split(s, sep);
      var last := pieces[|pieces| - 1];
      EndsWith(s, last) && (|last| < |s| ==> s[|s| - |last| - 1] == sep)
  {
    var pieces := Split(s, sep);
    var n := |pieces|;
    var last := pieces[n - 1];
    JoinSplit(s, sep);
    if n > 1 {
      var front := pieces[..n - 1];
      assert pieces == front + [last];
      JoinAppend(front, [last], [sep]);
      assert s == Join(front, [sep]) + [sep] + last;
    }
  }

  /** Join inverts Split. */
  lemma {:induction false} JoinSplit(s: string, sep: char)
    ensures Join(Split(s, sep), [sep]) == s
    decreases |s|
  {
    if |s| > 0 {
      JoinSplit(s[1..], sep);
      var rest := Split(s[1..], sep);
      if s[0] == sep {
        assert Split(s, sep) == [""] + rest;
        assert ([""] + rest)[1..] == rest;
        assert [sep] + s[1..] == s;
      } else {
        var r := Split(s, sep);
        assert r == [[s[0]] + rest[0]] + rest[1..];
        if |rest| == 1 {
          assert [s[0]] + s[1..] == s;
        } else {
          assert r[1..] == rest[1..];
          assert Join(rest, [sep]) == rest[0] + [sep] + Join(rest[1..], [sep]);
          assert [s[0]] + s[1..] == s;
        }
      }
    }
  }

  lemma ConcatAppend(xs: seq<string>, ys: seq<string>)
    ensures Concat(xs + ys) == Concat(xs) + Concat(ys)
    decreases |xs|
  {
    if |xs| == 0 {
      assert xs + ys == ys;
    } else {
      assert (xs + ys)[1..] == xs[1..] + ys;
      ConcatAppend(xs[1..], ys);
    }
  }

  lemma NonEmptyAppend(xs: seq<string>, ys: seq<string>)
    ensures NonEmpty(xs + ys) == NonEmpty(xs) + NonEmpty(ys)
    decreases |xs|
  {
    if |xs| == 0 {
      assert xs + ys == ys;
    } else {
      assert (xs + ys)[1..] == xs[1..] + ys;
      NonEmptyAppend(xs[1..], ys);
    }
  }

  lemma ReplaceCharAppend(a: string, b: string, c: char, rep: string)
    ensures ReplaceChar(a + b, c, rep) == ReplaceChar(a, c, rep) + ReplaceChar(b, c, rep)
    decreases |a|
  {
    if |a| == 0 {
      assert a + b == b;
    } else {
      assert (a + b)[1..] == a[1..] + b;
      ReplaceCharAppend(a[1..], b, c, rep);
    }
  }

  /** Replacing a character that does not occur changes nothing. */
  lemma ReplaceCharOne(c: char, d: char, rep: string)
    ensures ReplaceChar([c], d, rep) == if c == d then rep else [c]
  {
    assert [c][1..] == [];
  }

  lemma ReplaceCharAbsent(s: string, c: char, rep: string)
    requires c !in s
    ensures ReplaceChar(s, c, rep) == s
    decreases |s|
  {
    if |s| > 0 {
      ReplaceCharAbsent(s[1..], c, rep);
      assert [s[0]] + s[1..] == s;
    }
  }

  /** Replacing a character brings in no character that neither the input nor `rep` has. */
  lemma ReplaceCharKeepsAbsent(s: string, c: char, rep: string, d: char)
    requires d !in s && d !in rep
    ensures d !in ReplaceChar(s, c, rep)
    decreases |s|
  {
    if |s| > 0 {
      ReplaceCharKeepsAbsent(s[1..], c, rep, d);
    }
  }

  /** `startsWith` is the sequence prefix relation. */
  lemma StartsWithIsPrefix(s: string, prefix: string)
    ensures StartsWith(s, prefix) <==> prefix <= s
  {
  }

  lemma PrefixUnderPrefix(x: string, m: string, y: string)
    requires m <= y
    ensures x + m <= x + y
  {
    assert (x + y)[..|x + m|] == x + y[..|m|];
  }

  /** Joining with `/` pieces free of `\` gives a string free of `\`. */
  lemma NoBackslashJoin(names: seq<string>)
    requires forall i :: 0 <= i < |names| ==> '\\' !in names[i]
    ensures '\\' !in Join(names, "/")
  {
    if |names| > 1 {
      NoBackslashJoin(names[1..]);
    }
  }

  lemma ConsAssoc(c: char, x: string, y: string)
    ensures [c] + (x + y) == [c] + x + y
  {
  }

  /** A scan for `pat` passes untouched over text that cannot start an occurrence. */
  lemma ReplaceAllSkip(x: string, y: string, pat: string, rep: string)
    requires |pat| > 0
    requires pat[0] !in x
    ensures ReplaceAll(x + y, pat, rep) == x + ReplaceAll(y, pat, rep)
    decreases |x|
  {
    if |x| > 0 {
      var s := x + y;
      assert s[0] == x[0];
      assert !StartsWith(s, pat);
      assert s[1..] == x[1..] + y;
      ReplaceAllSkip(x[1..], y, pat, rep);
      assert [x[0]] + x[1..] == x;
    } else {
      assert x + y == y;
    }
  }

  /** A scan for `pat` rewrites an occurrence at the front and carries on after it. */
  lemma ReplaceAllHit(y: string, pat: string, rep: string)
    requires |pat| > 0
    ensures ReplaceAll(pat + y, pat, rep) == rep + ReplaceAll(y, pat, rep)
  {
    var s := pat + y;
    assert s[..|pat|] == pat;
    assert s[|pat|..] == y;
  }

  /**
   A scan for `pat` passes over a first character `c` that does not start an occurrence
   at the front of `c + y`.
   */
  lemma ReplaceAllMiss(c: char, y: string, pat: string, rep: string)
    requires |pat| > 0
    requires !StartsWith([c] + y, pat)
    ensures ReplaceAll([c] + y, pat, rep) == [c] + ReplaceAll(y, pat, rep)
  {
    assert ([c] + y)[1..] == y;
  }
}
